=== FILE: README.md ===
# Wallet-watching Telegram bot, modelled in Dafny

The bot polls a list of wallet addresses. For each one it asks four
upstream services in turn (CoinGlass, DeBank, DexScreener, HyperDash) for a
snapshot of the wallet's token values, leveraged positions and USD total. It
keeps the first answer, diffs it against the state stored from the previous
poll, stores the new snapshot in place of the old one, and sends one Telegram
message per derived event. Three smaller Solana watchers each remember the
newest transaction signature seen per wallet. One reports the new
transaction itself, one raises a whale alert when at least 50 SOL left the
wallet, and one classifies each token movement of the transaction as a BUY
or a SELL.

The model covers the pure logic of all of this:

- `DiffEngine` is `compare_and_generate_events`. It has five stages: new
  tokens, buys and sells, the balance, opens and increases, closes. The
  thresholds are hard-coded as 1, 5 and 1.05. `DiffProperties` relates the
  diff to its inputs as a whole: diffing a state against itself gives nothing,
  first sight of a wallet, side flips, and how often each event can occur.
- `Tally` and `Providers` are the aggregation loops of the four `fetch_from_*`
  functions, working on already-parsed records.
- `Resolver` is `detect_and_build_snapshots`: the first answer wins, in a fixed
  order, with missing keys filled in.
- `PollCycle` is `get_wallet_state`, `set_wallet_state` and
  `process_wallet_sync`. State is keyed by the lower-cased address.
- `WatchList` is `wallet_store.py` plus the list logic of the `/add` and
  `/remove` handlers.
- `SolanaRpc` holds the parsed RPC data and the shared latest-signature dedup
  step. `SolanaTracker`, `WhaleMonitor` and `TradeMonitor` are the three
  watchers.

Modelling choices:

- Python does not fix the iteration order of a set. In the diff, the token
  stages iterate over `now_tokens` (a dict) and over a set union. These two
  orders are parameters, constrained to list each key exactly once, so every
  property is stated for all such orders.
- A missing symbol (`None`) and an empty one are both falsy in the source's
  tests of token symbols, which skip them. Both are modelled as `""`.
- A request that raises, returns a non-OK status, or returns an unparseable
  body becomes an input constructor (`Response.Raised`, `Response.NotOk`, or
  `None`).
- The clock (`updated_at`) is an input string.
- `MIN_POSITION_VALUE_USD` comes from the environment, so it is the parameter
  `minUsd`.
- Float amounts are `real`.

Three facts about the code, which the model follows as written:

- The code has no magnitude floor for new tokens.
- The code has no minimum size for an OPEN in the diff. The minimum is applied
  earlier, by the providers.
- The code hard-codes the diff thresholds rather than taking them from
  configuration.

A token that is new and worth at least 1 produces both a new-token event and
a BUY. The code does this and the model keeps it.

One observation about the code as written, kept as behaviour rather than
corrected: `prev_map` keeps the last of several previous positions that share
a (symbol, side) key. So a state with two such positions, the larger one
first, diffed against itself reports an INCREASE. `DiffOfSameIsEmpty` therefore
requires distinct keys, and `DuplicateKeysBreakSelfDiff` exhibits the case.

## Model

| member | source | states |
|---|---|---|
| Common.LastWins | solana_trade_monitor.py:58-66 | a dict built by a comprehension has exactly the keys of the pairs, and a key holds the value of its last pair |
| Common.Distinct | solana_trade_monitor.py:68 | iterating a dict built from a list visits each distinct key of the list exactly once, and nothing else |
| Tally.AccumulateSpec | hyperdash_telegram_bot_mtproto_coinglass.py:263-269 | the accumulation loop's dict has a key iff some named record carries it, and each key holds that symbol's total (reference `SumFor`) |
| Tally.SumBySymbol | hyperdash_telegram_bot_mtproto_coinglass.py:263-269 | the per-symbol dict has exactly the named symbols as keys, and each key holds the total amount of the records with that symbol (reference `SumFor`) |
| Tally.TallySum | hyperdash_telegram_bot_mtproto_coinglass.py:270-271 | `sum(tokens.values())` of the tallied dict equals the total of all named records, i.e. the running total a provider keeps beside the dict |
| Tally.MapSumUpdate | hyperdash_telegram_bot_mtproto_coinglass.py:269 | overwriting one key of a dict changes the sum of its values by the new value minus the old (0 when absent) |
| Providers.CoinGlassPositions | hyperdash_telegram_bot_mtproto_coinglass.py:338-345 | a position record is kept iff the absolute value of its USD value reaches the minimum; the side follows the sign of the size; the kept size is that absolute value |
| Providers.CoinGlassPositionsAppend | hyperdash_telegram_bot_mtproto_coinglass.py:338-345 | the kept positions of two lists in a row are the kept positions of each, in order, and one record gives its one position or none, so the kept positions follow the records' order |
| Providers.CoinGlassFetch | hyperdash_telegram_bot_mtproto_coinglass.py:302-358 | no snapshot iff there is no API key or the asset request raises; a non-OK asset or positions reply leaves that part empty; after an OK asset reply the tokens are exactly the non-empty listed symbols, each holding the sum of its balances; after an OK positions reply the positions are exactly `CoinGlassPositions` of the list; the total is the sum of the named balances plus the kept position sizes |
| Providers.DeBankFetch | hyperdash_telegram_bot_mtproto_coinglass.py:276-300 | every parsed reply gives a snapshot with no positions and DeBank's own total; tokens are `price * amount` summed per symbol, or per name when the symbol is missing |
| Providers.DexScreenerFetch | hyperdash_telegram_bot_mtproto_coinglass.py:258-274 | a snapshot exists iff some pair has a base symbol; the tokens are exactly the non-empty base symbols, each holding its summed liquidity; there is no positions key; the total is the sum of the token values |
| Providers.HyperDashPositions | hyperdash_telegram_bot_mtproto_coinglass.py:375-380 | an entry is kept iff its notional reaches the minimum (no absolute value); the side is long or short, never empty |
| Providers.HyperDashPositionsAppend | hyperdash_telegram_bot_mtproto_coinglass.py:375-380 | the kept positions of two lists in a row are the kept positions of each, in order, and one entry gives its one position or none |
| Providers.HyperDashFetch | hyperdash_telegram_bot_mtproto_coinglass.py:360-386 | a snapshot exists iff some entry's notional reaches the minimum; its positions are exactly `HyperDashPositions` of the entries; there is no tokens key; the total is the sum of the kept sizes |
| Resolver.Normalize | hyperdash_telegram_bot_mtproto_coinglass.py:399-402 | a missing `tokens` becomes `{}` and missing `positions` becomes `[]`; the source and total are kept |
| Resolver.FirstYield | hyperdash_telegram_bot_mtproto_coinglass.py:390-406 | the result is the normalised answer of the first attempt that yields a snapshot, and `None` iff no attempt does |
| Resolver.ResolvePriority | hyperdash_telegram_bot_mtproto_coinglass.py:389-406 | CoinGlass, DeBank, DexScreener, HyperDash in that order: the first that yields decides alone, a raising provider is skipped like one returning `None`, and there is no answer iff none yields |
| Resolver.ResolvedIsAttributed | hyperdash_telegram_bot_mtproto_coinglass.py:396-403 | a resolved snapshot carries the source and total of one provider that yielded |
| Resolver.CoinGlassWithKeyWins | hyperdash_telegram_bot_mtproto_coinglass.py:302-358 | with an API key and an asset request that does not raise, CoinGlass always answers and so shadows every other provider |
| Resolver.DeBankReplyWins | hyperdash_telegram_bot_mtproto_coinglass.py:276-300 | when CoinGlass gives nothing, any parsed DeBank reply decides the answer, with no positions and DeBank's total |
| Resolver.MissingKeysFilled | hyperdash_telegram_bot_mtproto_coinglass.py:399-402 | an answer taken from DexScreener has empty positions and one taken from HyperDash has empty tokens |
| DiffEngine.NewTokenEvents | hyperdash_telegram_bot_mtproto_coinglass.py:423-425 | a new-token event for a symbol iff it is a current key absent from the previous tokens, carrying the current value; at most one per symbol |
| DiffEngine.TokenChangeEvents | hyperdash_telegram_bot_mtproto_coinglass.py:428-436 | over the union of keys, an absent key reading as 0: BUY iff the value rose by at least 1, SELL iff it fell by at least 1; at most one per symbol |
| DiffEngine.BalanceEvents | hyperdash_telegram_bot_mtproto_coinglass.py:439-440 | one balance event with both totals iff the total moved by strictly more than 5 |
| DiffEngine.LastSizes | hyperdash_telegram_bot_mtproto_coinglass.py:443 | the lookup has exactly the previous (symbol, side) keys, and each maps to the size of the last previous position with that key |
| DiffEngine.OpenIncreaseEvents | hyperdash_telegram_bot_mtproto_coinglass.py:445-453 | OPEN iff a current position's key is not in the lookup; INCREASE iff it is and the size exceeds 1.05 times the looked-up size |
| DiffEngine.CloseEvents | hyperdash_telegram_bot_mtproto_coinglass.py:455-459 | CLOSE with its size iff a previous position has no current position with the same symbol and side |
| DiffEngine.Diff | hyperdash_telegram_bot_mtproto_coinglass.py:409-461 | the events come in stage order: new tokens, buys and sells, balance, opens and increases, closes |
| DiffEngine.DiffMembership | hyperdash_telegram_bot_mtproto_coinglass.py:409-461 | an event is in the diff iff the stage that emits that kind of event emitted it |
| DiffEngine.DiffNewTokens | hyperdash_telegram_bot_mtproto_coinglass.py:423-425 | in the whole diff, a new-token event occurs iff its symbol is new, at the current value, with no magnitude floor |
| DiffEngine.DiffTokenChanges | hyperdash_telegram_bot_mtproto_coinglass.py:428-436 | in the whole diff, BUY and SELL occur exactly for symbols of either side that moved by at least 1 up or down, with both values |
| DiffEngine.DiffBalance | hyperdash_telegram_bot_mtproto_coinglass.py:439-440 | in the whole diff, the balance event occurs iff the totals differ by strictly more than 5, and no other balance event occurs |
| DiffEngine.DiffOpensAndIncreases | hyperdash_telegram_bot_mtproto_coinglass.py:443-453 | in the whole diff, OPEN iff no previous position has the key; INCREASE iff the last previous size with that key, times 1.05, is exceeded |
| DiffEngine.DiffCloses | hyperdash_telegram_bot_mtproto_coinglass.py:455-459 | in the whole diff, CLOSE iff a previous position's key is gone from the current positions |
| DiffProperties.NoNewTokensFromSelf | hyperdash_telegram_bot_mtproto_coinglass.py:423-425 | a token dict compared with itself has no new tokens, in any order |
| DiffProperties.NoTokenChangesFromSelf | hyperdash_telegram_bot_mtproto_coinglass.py:428-432 | a token dict compared with itself has no buys or sells |
| DiffProperties.NoOpensWhenCovered | hyperdash_telegram_bot_mtproto_coinglass.py:445-453 | no OPEN or INCREASE when every current key is known and no size exceeds 1.05 times its looked-up size |
| DiffProperties.NoClosesWhenKept | hyperdash_telegram_bot_mtproto_coinglass.py:455-459 | no CLOSE when every previous key is still present |
| DiffProperties.LastSizesOfDistinct | hyperdash_telegram_bot_mtproto_coinglass.py:443 | with distinct keys, the lookup maps each position's key to its own size |
| DiffProperties.DiffOfSameIsEmpty | hyperdash_telegram_bot_mtproto_coinglass.py:409-461 | a state diffed against itself gives no event, when its positions have distinct keys and non-negative sizes |
| DiffProperties.DuplicateKeysBreakSelfDiff | hyperdash_telegram_bot_mtproto_coinglass.py:443-453 | the distinct-keys premise is needed: two ETH long positions, 100 then 10, diffed against themselves give one INCREASE from 10 to 100 |
| DiffProperties.FirstSight | hyperdash_telegram_bot_mtproto_coinglass.py:422-459 | against the empty state every token is new, a token worth at least 1 is also a BUY from 0, every position opens, nothing closes or increases |
| DiffProperties.FlipIsCloseThenOpen | hyperdash_telegram_bot_mtproto_coinglass.py:443-459 | a long position that turns short, all else equal, gives exactly an OPEN of the short side followed by a CLOSE of the long side |
| DiffProperties.TokenEventsOncePerSymbol | hyperdash_telegram_bot_mtproto_coinglass.py:422-436 | in a diff no symbol has two new-token events, nor two buy-or-sell events |
| DiffProperties.CloseCount | hyperdash_telegram_bot_mtproto_coinglass.py:455-459 | the close stage emits a CLOSE once per occurrence of a previous position whose key is gone |
| DiffProperties.OpenCount | hyperdash_telegram_bot_mtproto_coinglass.py:445-448 | the open stage emits an OPEN once per occurrence of a current position whose key is unknown |
| DiffProperties.IncreaseCount | hyperdash_telegram_bot_mtproto_coinglass.py:445-453 | the open stage emits an INCREASE with a given before-size once per occurrence of a current position whose key is known, whose looked-up size is that before-size, and which exceeds it by the growth factor; otherwise never |
| DiffProperties.OneClosePerPosition | hyperdash_telegram_bot_mtproto_coinglass.py:455-459 | in the whole diff a CLOSE occurs as many times as the previous position does when its key is gone, else never |
| DiffProperties.OneOpenPerPosition | hyperdash_telegram_bot_mtproto_coinglass.py:445-448 | in the whole diff an OPEN occurs as many times as the current position does when its key is new, else never |
| DiffProperties.OneIncreasePerPosition | hyperdash_telegram_bot_mtproto_coinglass.py:443-453 | in the whole diff an INCREASE occurs as many times as the current position does when it grew past 1.05 times the last previous size under its key, else never |
| PollCycle.GetWalletState | hyperdash_telegram_bot_mtproto_coinglass.py:122-123 | the stored holdings under the lower-cased address, or the empty baseline when none is stored |
| PollCycle.SetWalletState | hyperdash_telegram_bot_mtproto_coinglass.py:125-127 | the entry under the lower-cased address is replaced whole and every other entry is kept |
| PollCycle.GetAfterSet | hyperdash_telegram_bot_mtproto_coinglass.py:122-127 | reading after writing gives the written holdings for any spelling with the same lower case, and the old value for every other address |
| PollCycle.ProcessWallet | hyperdash_telegram_bot_mtproto_coinglass.py:473-485 | no snapshot: store untouched and no events; otherwise the address's entry becomes exactly the snapshot's holdings and the poll time, other entries stay, and the events are the diff against the stored state |
| PollCycle.UnseenAddress | hyperdash_telegram_bot_mtproto_coinglass.py:122-123 | an address never stored is diffed against the empty baseline, so all its tokens are new and all its positions open |
| PollCycle.RepeatedObservationIsQuiet | hyperdash_telegram_bot_mtproto_coinglass.py:473-485 | a second poll that resolves to the same snapshot sends nothing and only moves the timestamp (distinct keys, non-negative sizes) |
| WatchList.GetWallets | wallet_store.py:1-2 | the stored list is returned unchanged, and an empty one is created on first use |
| WatchList.RemoveFirst | wallet_store.py:14 | `list.remove` drops the first occurrence: the result is the list without the element at the first index holding it, one element shorter, the multiset losing exactly that element |
| WatchList.Add | wallet_store.py:4-9 | an absent address is appended at the end with answer True; a present one leaves the list unchanged with answer False |
| WatchList.Remove | wallet_store.py:11-16 | a present address loses its first occurrence, the rest keeping their order, with answer True; an absent one leaves the list unchanged with answer False |
| WatchList.AddWallet | wallet_store.py:4-9 | `add_wallet` on the `bot_data` entry: the address is present afterwards, and the answer is True iff it was absent |
| WatchList.RemoveWallet | wallet_store.py:11-16 | `remove_wallet` on the `bot_data` entry: the answer is True iff the address was present |
| WatchList.AddIdempotent | wallet_store.py:4-9 | adding the same address twice equals adding it once, and the second answer is False |
| WatchList.AddKeepsDistinct | wallet_store.py:4-9 | adding keeps a duplicate-free list duplicate-free |
| WatchList.RemoveKeepsDistinct | wallet_store.py:11-16 | removing keeps a duplicate-free list duplicate-free and leaves the address absent |
| WatchList.AddThenRemove | wallet_store.py:4-16 | adding an absent address and removing it again restores the list |
| WatchList.LowerAll | hyperdash_telegram_bot_mtproto_coinglass.py:97-101 | the loaded list is the file's list with each address lower-cased, position by position |
| WatchList.CmdAdd | hyperdash_telegram_bot_mtproto_coinglass.py:196-213 | no argument gives the usage reply; a known lower-cased address leaves the file alone; a new one is appended and the list written back lower-cased |
| WatchList.CmdRemove | hyperdash_telegram_bot_mtproto_coinglass.py:215-231 | no argument gives the usage reply; an unknown address leaves the file alone; a known one loses its first occurrence in the lower-cased list, the rest keeping their order, and that list is written back |
| WatchList.CommandsAgreeWithStore | hyperdash_telegram_bot_mtproto_coinglass.py:207-231 | the handlers answer and write exactly what `Add`/`Remove` compute on the lower-cased list and argument |
| SolanaRpc.Observe | solana_tracker.py:31-40 | nothing to do iff there are no signatures or the newest equals the recorded one; otherwise the newest is recorded for this wallet only |
| SolanaRpc.ObserveIdempotent | solana_tracker.py:37-40 | observing again with the same newest signature finds nothing new |
| SolanaRpc.ObserveReadsOnlyNewest | solana_monitor.py:42-44 | only `sigs[0]` matters: lists with the same newest signature give the same outcome |
| SolanaRpc.RecordsAfterSpec | solana_monitor.py:36-47 | over a duplicate-free wallet list a pass records the newest signature of every wallet that had signatures and keeps every other entry; nothing else gains an entry |
| SolanaTracker.CheckWallet | solana_tracker.py:30-42 | `None` and the map unchanged with no signatures or an already-seen newest one; otherwise the newest is recorded, other addresses untouched, and the fetched transaction returned |
| SolanaTracker.CheckWalletTwice | solana_tracker.py:37-41 | a second call with the same newest signature returns `None` and keeps the map |
| WhaleMonitor.AlertOf | solana_monitor.py:48-67 | an alert iff the transaction, its meta and both balance lists are present and at least 50 SOL left the first account; it names the wallet, the amount and the signature |
| WhaleMonitor.WhaleStep | solana_monitor.py:38-67 | unchanged signature: nothing and the record kept; otherwise the record moves to the newest signature before the transaction is looked at, whether or not it alerts |
| WhaleMonitor.WhaleThresholdInLamports | solana_monitor.py:52-56 | the alert bound is inclusive at exactly 50 * 10^9 lamports, and an inflow never alerts |
| WhaleMonitor.WhalePass | solana_monitor.py:36-70 | the record after a pass is the one `RecordsAfter` gives; at most one alert per listed wallet, each for a listed wallet, its newest signature and at least 50 SOL |
| WhaleMonitor.WhalePassAlerts | solana_monitor.py:36-67 | over a duplicate-free wallet list, an alert is sent iff some wallet's newest signature was new and its transaction gives exactly that alert |
| WhaleMonitor.WhalePassOncePerWallet | solana_monitor.py:36-67 | over a duplicate-free wallet list, no two alerts of a pass name the same wallet |
| TradeMonitor.Classify | solana_trade_monitor.py:72-80 | a zero movement is never reported; as written, SELL iff SOL left and the token went down, BUY iff SOL came in and the token went up |
| TradeMonitor.BalanceMap | solana_trade_monitor.py:58-66 | the balance dict has exactly the listed mints as keys, and each holds the amount of the last entry for it, a `null` amount reading as 0 |
| TradeMonitor.BalanceMapValue | solana_trade_monitor.py:58-66 | the entry a mint's last balance record writes is the one the dict keeps |
| TradeMonitor.MintSignals | solana_trade_monitor.py:68-80 | a signal for a mint iff it is iterated and its movement (post minus pre, missing pre as 0) is classified; at most one per mint |
| TradeMonitor.SignalsOf | solana_trade_monitor.py:46-80 | no signals unless the transaction has meta, both SOL balance lists are non-empty and at least 1 SOL moved; past those gates, a signal iff its mint is in the post balances, its movement is post minus pre (a missing pre as 0) and the rule classifies it; each mint once |
| TradeMonitor.TradeStep | solana_trade_monitor.py:36-80 | unchanged signature: nothing and the record kept; otherwise the signature is consumed before the fetch, even when the transaction or its meta is missing, and one message is sent per signal of the transaction, tagged with the wallet and that signature, no mint twice |
| TradeMonitor.Tag | solana_trade_monitor.py:82-98 | one message per signal, each naming the wallet and the signature, and no other messages; distinct mints give messages with distinct mints |
| TradeMonitor.TradePass | solana_trade_monitor.py:34-101 | the record after a pass is the one `RecordsAfter` gives; every message names a listed wallet |
| TradeMonitor.TradePassMessages | solana_trade_monitor.py:34-101 | over a duplicate-free wallet list, a message is sent iff some wallet's newest signature was new and the message carries that wallet, that signature and one of the transaction's signals |
| TradeMonitor.TradePassOncePerWalletMint | solana_trade_monitor.py:34-98 | over a duplicate-free wallet list, no two messages of a pass report the same mint for the same wallet |
| TradeMonitor.PreOnlyMintsAreSilent | solana_trade_monitor.py:58-80 | a mint found only in the pre balances never produces a signal |
| TradeMonitor.SmallSolMovesAreSilent | solana_trade_monitor.py:51-56 | a movement of under 10^9 lamports either way sends nothing |
| TradeMonitor.SwapsAreMisread | solana_trade_monitor.py:51-80 | as written, spending 5 SOL on 100 tokens sends nothing, and so does selling 100 tokens for 5 SOL when the mint stays in the post balances at 0 |
| TradeMonitor.CorrectedFollowsSwap | solana_trade_monitor.py:75-80 | corrected: BUY iff SOL left and the token came in, SELL iff both went the other way; the two rules never both fire |
| TradeMonitor.CorrectedReadsSpend | solana_trade_monitor.py:75-80 | corrected: spending 5 SOL on 100 tokens is one BUY of 100 tokens |
| TradeMonitor.CorrectedReadsSell | solana_trade_monitor.py:51-80 | corrected: selling 100 tokens for 5 SOL, with the mint left at 0 in the post balances, is one SELL of 100 tokens against an inflow of 5 SOL |

## Left out

- HTTP sessions, retries, proxies and timeouts. The requests themselves are left out too; their parsed results are inputs.
- JSON persistence of the state, the watch list and the authorized chats. The state store is a map.
- `authorize_chat`, `/list` and `/status`.
- Argument extraction, which splits the message text and lower-cases the argument; the argument is an input.
- Telegram sending and message formatting, including the `:.2f`/`:.0f` rounding.
- The regular-expression scrape of the HyperDash page. Its result is an input: the parsed entries, or `None` when the page has no positions array.
- `poller_thread` and the `monitor` loops' sleeping, threads and async calls. One pass of each Solana `monitor` is modelled (`WhalePass`, `TradePass`, with the record both leave given by `SolanaRpc.RecordsAfter`).
- A parse failure of a single record mid-loop: the CoinGlass positions loop would keep the records before it, and the other loops would drop the whole snapshot. The model only has whole requests raising, which it folds into `Raised`, `NotOk` or `None`.
- Floating point. Amounts are reals, so the lamport/SOL division and all comparisons are exact.
- `Common.Lower` only folds ASCII letters. Python's `str.lower` also folds other scripts.
- The main module, `telegram_commands.py` and `alerts.py`, which are glue. The list logic of `telegram_commands.py` is the same as `wallet_store.py`.
- `usd_total` is not checked for being non-negative, and neither are token values. The code does not check them either.
- Position symbols: a missing position symbol (`None`) and an empty one are both modelled as `""`. The code never tests position symbols for being empty, so it keeps such positions as the model does, but in the diff's position dict `None` and `""` are different keys and the model merges them.
- A message send that raises inside the trade watcher's mint loop: the remaining mints of that transaction are skipped. Sending is left out, so the model sends every signal.
- The whale watcher and the trade watcher read account 0, the fee payer, which need not be the watched wallet. The model reads the same account and does not judge this.

## Findings

| source | as written | input that shows it | evidently intended | confidence | as-written member | corrected member |
|---|---|---|---|---|---|---|
| solana_trade_monitor.py:51-80 | `sol_change` is pre minus post, so it is positive when SOL left the wallet. SELL is then "SOL left and the token went down", and BUY is "SOL came in and the token went up". | A swap spending 5 SOL on 100 tokens (lamports 10e9 → 5e9, token 0 → 100) matches neither branch and sends nothing. So does selling 100 tokens for 5 SOL (lamports 5e9 → 10e9, token 100 → 0, the mint still listed in the post balances). | BUY when SOL left and the token came in; SELL when the token left and SOL came in. This is the same outflow sign the whale watcher uses. | medium, not executed | TradeMonitor.SwapsAreMisread | TradeMonitor.CorrectedFollowsSwap |

`TradeMonitor` carries both rules (`Rule.AsWritten`, `Rule.Corrected`) through
`Classify`, `MintSignals`, `SignalsOf`, `TradeStep` and `TradePass`. Their contracts hold
for either rule. `CorrectedReadsSpend` and `CorrectedReadsSell` show the
corrected rule reading the example spend as one BUY and the example sale as
one SELL.

=== FILE: common.dfy ===
/** Small shared vocabulary: an option type, absolute value, the ASCII part of
    Python's `str.lower`, and the two ways the bot builds Python dicts from
    lists (a comprehension where the last entry for a key wins, and the
    first-insertion key order a dict iterates in). */
module Common {

  /** Python's `None` or a value. */
  datatype Option<+T> = None | Some(value: T) {

    /** `x or default`, for a value that is either missing or present. */
    function GetOr(default: T): T {
      match this
      case Some(v) => v
      case None => default
    }
  }

  function Abs(x: real): real {
    if x < 0.0 then -x else x
  }

  /** A dict lookup that reads a missing key as 0. */
  function ValueOr0<K>(m: map<K, real>, k: K): real {
    if k in m then m[k] else 0.0
  }

  /** The dict `m` holds `v` under `k`. */
  predicate MapsTo<K(==), V(==)>(m: map<K, V>, k: K, v: V) {
    k in m && m[k] == v
  }

  predicate NoDuplicates<T(==)>(s: seq<T>) {
    forall i, j :: 0 <= i < j < |s| ==> s[i] != s[j]
  }

  /** `order` lists every element of `keys` exactly once: one of the orders
      in which Python may iterate over a set or dict with these keys. */
  predicate Enumerates<T(==)>(order: seq<T>, keys: set<T>) {
    && NoDuplicates(order)
    && (forall x :: x in order ==> x in keys)
    && (forall x :: x in keys ==> x in order)
  }

  // ---------------------------------------------------------------------
  // Case folding

  predicate IsUpper(c: char) {
    'A' <= c <= 'Z'
  }

  function LowerChar(c: char): char {
    if IsUpper(c) then (c as int - 'A' as int + 'a' as int) as char else c
  }

  /** `str.lower()` on the ASCII letters; every other character is kept. */
  function Lower(s: string): (r: string)
    ensures |r| == |s|
    ensures forall i :: 0 <= i < |s| ==> r[i] == LowerChar(s[i])
  {
    if s == [] then [] else [LowerChar(s[0])] + Lower(s[1..])
  }

  /** Lower-casing leaves no upper-case letter behind, so doing it twice is
      the same as doing it once. */
  lemma LowerIdempotent(s: string)
    ensures forall i :: 0 <= i < |Lower(s)| ==> !IsUpper(Lower(s)[i])
    ensures Lower(Lower(s)) == Lower(s)
  {
  }

  // ---------------------------------------------------------------------
  // Dict construction

  /** A dict comprehension over key/value pairs, built pair by pair. */
  function Assign<K(==,!new), V>(kvs: seq<(K, V)>): map<K, V>
    decreases |kvs|
  {
    if kvs == [] then map[]
    else Assign(kvs[..|kvs| - 1])[kvs[|kvs| - 1].0 := kvs[|kvs| - 1].1]
  }

  /** The comprehension's keys are exactly the keys of the pairs. */
  lemma {:induction false} AssignKeys<K(!new), V>(kvs: seq<(K, V)>, k: K)
    ensures k in Assign(kvs) <==> exists i :: 0 <= i < |kvs| && kvs[i].0 == k
    decreases |kvs|
  {
    if kvs != [] {
      var init := kvs[..|kvs| - 1];
      AssignKeys(init, k);
      assert forall i :: 0 <= i < |init| ==> init[i] == kvs[i];
      if k == kvs[|kvs| - 1].0 {
        assert kvs[|kvs| - 1].0 == k;
      }
    }
  }

  /** A pair whose key no later pair repeats survives into the dict. */
  lemma {:induction false} AssignValue<K(!new), V>(kvs: seq<(K, V)>, i: int)
    requires 0 <= i < |kvs| && forall j :: i < j < |kvs| ==> kvs[j].0 != kvs[i].0
    ensures kvs[i].0 in Assign(kvs) && Assign(kvs)[kvs[i].0] == kvs[i].1
    decreases |kvs|
  {
    if i < |kvs| - 1 {
      var init := kvs[..|kvs| - 1];
      assert forall j :: 0 <= j < |init| ==> init[j] == kvs[j];
      AssignValue(init, i);
      assert kvs[|kvs| - 1].0 != kvs[i].0;
    }
  }

  /** A dict comprehension over key/value pairs: a later pair overwrites
      an earlier one with the same key. */
  function LastWins<K(==,!new), V>(kvs: seq<(K, V)>): (m: map<K, V>)
    ensures forall k :: k in m <==> exists i :: 0 <= i < |kvs| && kvs[i].0 == k
    ensures forall i :: 0 <= i < |kvs| && (forall j :: i < j < |kvs| ==> kvs[j].0 != kvs[i].0) ==>
              kvs[i].0 in m && m[kvs[i].0] == kvs[i].1
  {
    assert forall k :: k in Assign(kvs) <==> exists i :: 0 <= i < |kvs| && kvs[i].0 == k by {
      forall k ensures k in Assign(kvs) <==> exists i :: 0 <= i < |kvs| && kvs[i].0 == k {
        AssignKeys(kvs, k);
      }
    }
    assert forall i :: 0 <= i < |kvs| && (forall j :: i < j < |kvs| ==> kvs[j].0 != kvs[i].0) ==>
             kvs[i].0 in Assign(kvs) && Assign(kvs)[kvs[i].0] == kvs[i].1 by {
      forall i | 0 <= i < |kvs| && (forall j :: i < j < |kvs| ==> kvs[j].0 != kvs[i].0)
        ensures kvs[i].0 in Assign(kvs) && Assign(kvs)[kvs[i].0] == kvs[i].1
      {
        AssignValue(kvs, i);
      }
    }
    Assign(kvs)
  }

  /** The keys of a dict built from `xs`, in the order the dict iterates
      over them: each distinct element once, at its first occurrence. */
  function Distinct<T(==,!new)>(xs: seq<T>): (r: seq<T>)
    ensures NoDuplicates(r)
    ensures forall x :: x in r <==> x in xs
    decreases |xs|
  {
    if xs == [] then []
    else
      var r0 := Distinct(xs[..|xs| - 1]);
      var x := xs[|xs| - 1];
      assert forall y :: y in xs <==> y in xs[..|xs| - 1] || y == x;
      if x in r0 then r0 else r0 + [x]
  }
}

=== FILE: diff_engine.dfy ===
/** `compare_and_generate_events`: derive the change events between the
    stored state of a wallet and a fresh snapshot. The five stages run in a
    fixed order and each appends to the list. */
module DiffEngine {
  import opened Common
  import opened Snapshots

  /** Token moves smaller than this are noise. */
  const NoiseFloor: real := 1.0
  /** The total must move by strictly more than this. */
  const BalanceThreshold: real := 5.0
  /** A matched position must grow past this factor of its old size. */
  const GrowthFactor: real := 1.05

  datatype Event =
    | NewToken(symbol: string, value: real)
    | Buy(symbol: string, before: real, after: real)
    | Sell(symbol: string, before: real, after: real)
    | BalanceChange(before: real, after: real)
    | Open(symbol: string, side: Side, size: real)
    | Increase(symbol: string, side: Side, before: real, after: real)
    | Close(symbol: string, side: Side, size: real)

  /** The stage that emits an event. */
  function Stage(e: Event): nat {
    match e
    case NewToken(_, _) => 0
    case Buy(_, _, _) => 1
    case Sell(_, _, _) => 1
    case BalanceChange(_, _) => 2
    case Open(_, _, _) => 3
    case Increase(_, _, _, _) => 3
    case Close(_, _, _) => 4
  }

  predicate InStageOrder(events: seq<Event>) {
    forall i, j :: 0 <= i < j < |events| ==> Stage(events[i]) <= Stage(events[j])
  }

  predicate AllAtStage(events: seq<Event>, n: nat) {
    forall e :: e in events ==> Stage(e) == n
  }

  /** The token or market an event is about; a balance change has none. */
  function SymbolOf(e: Event): string {
    if e.BalanceChange? then "" else e.symbol
  }

  predicate IsTokenChange(e: Event) {
    e.Buy? || e.Sell?
  }

  // ---------------------------------------------------------------------
  // Stage 1: new tokens

  /** One event per token of the new dict that the old dict lacks, in the
      new dict's iteration order, given as `order`. */
  function NewTokenEvents(prev: TokenMap, now: TokenMap, order: seq<string>): (r: seq<Event>)
    ensures AllAtStage(r, 0)
    ensures forall e :: e in r ==> e.NewToken?
    ensures forall e: Event :: e.NewToken? ==>
              (e in r <==> e.symbol in order && e.symbol in now && e.symbol !in prev && e.value == now[e.symbol])
    ensures NoDuplicates(order) ==> forall i, j :: 0 <= i < j < |r| ==> SymbolOf(r[i]) != SymbolOf(r[j])
  {
    if order == [] then []
    else
      var s := order[0];
      var rest := NewTokenEvents(prev, now, order[1..]);
      assert forall i :: 0 <= i < |rest| ==> SymbolOf(rest[i]) in order[1..] by {
        forall i | 0 <= i < |rest| ensures SymbolOf(rest[i]) in order[1..] { assert rest[i] in rest; }
      }
      if s in now && s !in prev then [NewToken(s, now[s])] + rest else rest
  }

  // ---------------------------------------------------------------------
  // Stage 2: buys and sells

  /** The event for one symbol: nothing when the move is under the noise
      floor, otherwise a buy or a sell by the direction of the move. */
  function TokenChangeOf(prev: TokenMap, now: TokenMap, s: string): seq<Event> {
    var pv := ValueOr0(prev, s);
    var nv := ValueOr0(now, s);
    if Abs(nv - pv) < NoiseFloor then []
    else if nv > pv then [Buy(s, pv, nv)]
    else if nv < pv then [Sell(s, pv, nv)]
    else []
  }

  /** The change check over every token of either dict, in the iteration
      order of their union, given as `order`. */
  function TokenChangeEvents(prev: TokenMap, now: TokenMap, order: seq<string>): (r: seq<Event>)
    ensures AllAtStage(r, 1)
    ensures forall e :: e in r ==> IsTokenChange(e)
    ensures forall e: Event :: e.Buy? ==>
              (e in r <==> e.symbol in order && e.before == ValueOr0(prev, e.symbol)
                           && e.after == ValueOr0(now, e.symbol) && e.after - e.before >= NoiseFloor)
    ensures forall e: Event :: e.Sell? ==>
              (e in r <==> e.symbol in order && e.before == ValueOr0(prev, e.symbol)
                           && e.after == ValueOr0(now, e.symbol) && e.before - e.after >= NoiseFloor)
    ensures NoDuplicates(order) ==> forall i, j :: 0 <= i < j < |r| ==> SymbolOf(r[i]) != SymbolOf(r[j])
  {
    if order == [] then []
    else
      var rest := TokenChangeEvents(prev, now, order[1..]);
      assert forall i :: 0 <= i < |rest| ==> SymbolOf(rest[i]) in order[1..] by {
        forall i | 0 <= i < |rest| ensures SymbolOf(rest[i]) in order[1..] { assert rest[i] in rest; }
      }
      TokenChangeOf(prev, now, order[0]) + rest
  }

  // ---------------------------------------------------------------------
  // Stage 3: balance

  function BalanceEvents(prevTotal: real, nowTotal: real): (r: seq<Event>)
    ensures AllAtStage(r, 2)
    ensures |r| <= 1
    ensures r != [] <==> Abs(nowTotal - prevTotal) > BalanceThreshold
    ensures forall e :: e in r ==> e == BalanceChange(prevTotal, nowTotal)
  {
    if Abs(nowTotal - prevTotal) > BalanceThreshold then [BalanceChange(prevTotal, nowTotal)] else []
  }

  // ---------------------------------------------------------------------
  // Stage 4: opens and increases

  function KeyedSizes(ps: seq<Position>): (kvs: seq<(PositionKey, real)>)
    ensures |kvs| == |ps|
    ensures forall i :: 0 <= i < |ps| ==> kvs[i] == (ps[i].Key(), ps[i].sizeUsd)
  {
    seq(|ps|, i requires 0 <= i < |ps| => (ps[i].Key(), ps[i].sizeUsd))
  }

  /** Some position of `ps` has key `k`, i.e. the same symbol and side;
      the flip check asks this of the new positions. */
  predicate HasKey(ps: seq<Position>, k: PositionKey) {
    exists p :: p in ps && p.Key() == k
  }

  lemma KeysOfLastSizes(ps: seq<Position>, k: PositionKey)
    ensures k in LastWins(KeyedSizes(ps)) <==> HasKey(ps, k)
  {
    var kvs := KeyedSizes(ps);
    if k in LastWins(kvs) {
      var i :| 0 <= i < |kvs| && kvs[i].0 == k;
      assert ps[i] in ps;
    }
    if HasKey(ps, k) {
      var p :| p in ps && p.Key() == k;
      var i :| 0 <= i < |ps| && ps[i] == p;
      assert kvs[i].0 == k;
    }
  }

  lemma ValueOfLastSizes(ps: seq<Position>, i: int)
    requires 0 <= i < |ps| && forall j :: i < j < |ps| ==> ps[j].Key() != ps[i].Key()
    ensures MapsTo(LastWins(KeyedSizes(ps)), ps[i].Key(), ps[i].sizeUsd)
  {
    var kvs := KeyedSizes(ps);
    assert forall j :: i < j < |kvs| ==> kvs[j].0 != kvs[i].0;
  }

  /** `prev_map`: the previous positions by (symbol, side); when several
      share a key the last one is kept. */
  function LastSizes(ps: seq<Position>): (m: map<PositionKey, real>)
    ensures forall k :: k in m <==> HasKey(ps, k)
    ensures forall i :: 0 <= i < |ps| && (forall j :: i < j < |ps| ==> ps[j].Key() != ps[i].Key()) ==>
              MapsTo(m, ps[i].Key(), ps[i].sizeUsd)
  {
    var m := LastWins(KeyedSizes(ps));
    assert forall k :: k in m <==> HasKey(ps, k) by {
      forall k ensures k in m <==> HasKey(ps, k) {
        KeysOfLastSizes(ps, k);
      }
    }
    assert forall i :: 0 <= i < |ps| && (forall j :: i < j < |ps| ==> ps[j].Key() != ps[i].Key()) ==>
             MapsTo(m, ps[i].Key(), ps[i].sizeUsd) by {
      forall i | 0 <= i < |ps| && (forall j :: i < j < |ps| ==> ps[j].Key() != ps[i].Key())
        ensures MapsTo(m, ps[i].Key(), ps[i].sizeUsd)
      {
        ValueOfLastSizes(ps, i);
      }
    }
    m
  }

  /** The event for one current position: OPEN when its key is unknown,
      INCREASE when it grew past the growth factor, nothing otherwise. */
  function OpenIncreaseOf(lookup: map<PositionKey, real>, p: Position): seq<Event> {
    if p.Key() !in lookup then [Open(p.symbol, p.side, p.sizeUsd)]
    else if p.sizeUsd > lookup[p.Key()] * GrowthFactor then
      [Increase(p.symbol, p.side, lookup[p.Key()], p.sizeUsd)]
    else []
  }

  function OpenIncreaseEvents(lookup: map<PositionKey, real>, now: seq<Position>): (r: seq<Event>)
    ensures AllAtStage(r, 3)
    ensures forall e :: e in r ==> e.Open? || e.Increase?
    ensures forall e: Event :: e.Open? ==>
              (e in r <==> Position(e.symbol, e.side, e.size) in now && PositionKey(e.symbol, e.side) !in lookup)
    ensures forall e: Event :: e.Increase? ==>
              (e in r <==> Position(e.symbol, e.side, e.after) in now && PositionKey(e.symbol, e.side) in lookup
                           && e.before == lookup[PositionKey(e.symbol, e.side)]
                           && e.after > e.before * GrowthFactor)
  {
    if now == [] then []
    else
      assert forall p :: p in now <==> p == now[0] || p in now[1..];
      OpenIncreaseOf(lookup, now[0]) + OpenIncreaseEvents(lookup, now[1..])
  }

  // ---------------------------------------------------------------------
  // Stage 5: closes

  function CloseEvents(prev: seq<Position>, now: seq<Position>): (r: seq<Event>)
    ensures AllAtStage(r, 4)
    ensures forall e :: e in r ==> e.Close?
    ensures forall e: Event :: e.Close? ==>
              (e in r <==> Position(e.symbol, e.side, e.size) in prev && !HasKey(now, PositionKey(e.symbol, e.side)))
  {
    if prev == [] then []
    else
      assert forall p :: p in prev <==> p == prev[0] || p in prev[1..];
      var pp := prev[0];
      (if HasKey(now, pp.Key()) then [] else [Close(pp.symbol, pp.side, pp.sizeUsd)])
      + CloseEvents(prev[1..], now)
  }

  // ---------------------------------------------------------------------
  // The whole diff

  lemma StagesInOrder(a: seq<Event>, b: seq<Event>, c: seq<Event>, d: seq<Event>, e: seq<Event>)
    requires AllAtStage(a, 0) && AllAtStage(b, 1) && AllAtStage(c, 2) && AllAtStage(d, 3) && AllAtStage(e, 4)
    ensures InStageOrder(a + b + c + d + e)
  {
    var r := a + b + c + d + e;
    forall i, j | 0 <= i < j < |r|
      ensures Stage(r[i]) <= Stage(r[j])
    {
      assert r[i] in a || r[i] in b || r[i] in c || r[i] in d || r[i] in e;
      assert r[j] in a || r[j] in b || r[j] in c || r[j] in d || r[j] in e;
      if i < |a| { assert r[i] == a[i]; }
      if j >= |a + b + c + d| { assert r[j] == e[j - |a + b + c + d|]; }
    }
  }

  /** `nowOrder` is an iteration order of the current token dict and
      `unionOrder` one of the union of both key sets. Python fixes neither,
      so every property below holds for all such orders. */
  predicate IterationOrders(prev: Holdings, now: Holdings, nowOrder: seq<string>, unionOrder: seq<string>) {
    && Enumerates(nowOrder, now.tokens.Keys)
    && Enumerates(unionOrder, prev.tokens.Keys + now.tokens.Keys)
  }

  /** The events of stage `n` alone. */
  function StageEvents(prev: Holdings, now: Holdings, nowOrder: seq<string>, unionOrder: seq<string>, n: nat): (r: seq<Event>)
    requires n <= 4
    ensures AllAtStage(r, n)
  {
    if n == 0 then NewTokenEvents(prev.tokens, now.tokens, nowOrder)
    else if n == 1 then TokenChangeEvents(prev.tokens, now.tokens, unionOrder)
    else if n == 2 then BalanceEvents(prev.usdTotal, now.usdTotal)
    else if n == 3 then OpenIncreaseEvents(LastSizes(prev.positions), now.positions)
    else CloseEvents(prev.positions, now.positions)
  }

  /** The diff engine: new tokens, then buys and sells, then the balance,
      then opens and increases, then closes. */
  function Diff(prev: Holdings, now: Holdings, nowOrder: seq<string>, unionOrder: seq<string>): (r: seq<Event>)
    requires IterationOrders(prev, now, nowOrder, unionOrder)
    ensures InStageOrder(r)
  {
    var a := NewTokenEvents(prev.tokens, now.tokens, nowOrder);
    var b := TokenChangeEvents(prev.tokens, now.tokens, unionOrder);
    var c := BalanceEvents(prev.usdTotal, now.usdTotal);
    var d := OpenIncreaseEvents(LastSizes(prev.positions), now.positions);
    var e := CloseEvents(prev.positions, now.positions);
    StagesInOrder(a, b, c, d, e);
    a + b + c + d + e
  }

  lemma DiffIsConcat(prev: Holdings, now: Holdings, nowOrder: seq<string>, unionOrder: seq<string>)
    requires IterationOrders(prev, now, nowOrder, unionOrder)
    ensures Diff(prev, now, nowOrder, unionOrder) ==
              StageEvents(prev, now, nowOrder, unionOrder, 0) + StageEvents(prev, now, nowOrder, unionOrder, 1)
              + StageEvents(prev, now, nowOrder, unionOrder, 2) + StageEvents(prev, now, nowOrder, unionOrder, 3)
              + StageEvents(prev, now, nowOrder, unionOrder, 4)
  {
    assert StageEvents(prev, now, nowOrder, unionOrder, 0) == NewTokenEvents(prev.tokens, now.tokens, nowOrder);
    assert StageEvents(prev, now, nowOrder, unionOrder, 1) == TokenChangeEvents(prev.tokens, now.tokens, unionOrder);
    assert StageEvents(prev, now, nowOrder, unionOrder, 2) == BalanceEvents(prev.usdTotal, now.usdTotal);
    assert StageEvents(prev, now, nowOrder, unionOrder, 3) == OpenIncreaseEvents(LastSizes(prev.positions), now.positions);
    assert StageEvents(prev, now, nowOrder, unionOrder, 4) == CloseEvents(prev.positions, now.positions);
  }

  /** An event is in the diff iff its own stage emitted it. */
  lemma DiffMembership(prev: Holdings, now: Holdings, nowOrder: seq<string>, unionOrder: seq<string>, x: Event)
    requires IterationOrders(prev, now, nowOrder, unionOrder)
    ensures x in Diff(prev, now, nowOrder, unionOrder) <==> x in StageEvents(prev, now, nowOrder, unionOrder, Stage(x))
  {
    DiffIsConcat(prev, now, nowOrder, unionOrder);
    InStages(Diff(prev, now, nowOrder, unionOrder),
             StageEvents(prev, now, nowOrder, unionOrder, 0), StageEvents(prev, now, nowOrder, unionOrder, 1),
             StageEvents(prev, now, nowOrder, unionOrder, 2), StageEvents(prev, now, nowOrder, unionOrder, 3),
             StageEvents(prev, now, nowOrder, unionOrder, 4), x);
  }

  /** In a stage-sorted concatenation an event can only sit in the part of
      its own stage. */
  lemma InStages(r: seq<Event>, a: seq<Event>, b: seq<Event>, c: seq<Event>, d: seq<Event>, e: seq<Event>, x: Event)
    requires r == a + b + c + d + e
    requires AllAtStage(a, 0) && AllAtStage(b, 1) && AllAtStage(c, 2) && AllAtStage(d, 3) && AllAtStage(e, 4)
    ensures Stage(x) == 0 ==> (x in r <==> x in a)
    ensures Stage(x) == 1 ==> (x in r <==> x in b)
    ensures Stage(x) == 2 ==> (x in r <==> x in c)
    ensures Stage(x) == 3 ==> (x in r <==> x in d)
    ensures Stage(x) == 4 ==> (x in r <==> x in e)
  {
    assert x in r <==> x in a || x in b || x in c || x in d || x in e;
  }

  /** Stage 1: exactly the symbols that are new, each at its current value,
      whatever that value is. */
  lemma DiffNewTokens(prev: Holdings, now: Holdings, nowOrder: seq<string>, unionOrder: seq<string>)
    requires IterationOrders(prev, now, nowOrder, unionOrder)
    ensures forall x: Event :: x.NewToken? ==>
              (x in Diff(prev, now, nowOrder, unionOrder) <==>
                 x.symbol in now.tokens && x.symbol !in prev.tokens && x.value == now.tokens[x.symbol])
  {
    forall x: Event | x.NewToken? {
      DiffMembership(prev, now, nowOrder, unionOrder, x);
    }
  }

  /** Stage 2: every symbol of either side is looked at, an absent key
      reading as 0; a move of at least the noise floor up is a BUY and down
      is a SELL. */
  lemma DiffTokenChanges(prev: Holdings, now: Holdings, nowOrder: seq<string>, unionOrder: seq<string>)
    requires IterationOrders(prev, now, nowOrder, unionOrder)
    ensures forall x: Event :: x.Buy? ==>
              (x in Diff(prev, now, nowOrder, unionOrder) <==>
                 (x.symbol in prev.tokens || x.symbol in now.tokens)
                 && x.before == ValueOr0(prev.tokens, x.symbol) && x.after == ValueOr0(now.tokens, x.symbol)
                 && x.after - x.before >= NoiseFloor)
    ensures forall x: Event :: x.Sell? ==>
              (x in Diff(prev, now, nowOrder, unionOrder) <==>
                 (x.symbol in prev.tokens || x.symbol in now.tokens)
                 && x.before == ValueOr0(prev.tokens, x.symbol) && x.after == ValueOr0(now.tokens, x.symbol)
                 && x.before - x.after >= NoiseFloor)
  {
    forall x: Event | x.Buy? || x.Sell? {
      DiffMembership(prev, now, nowOrder, unionOrder, x);
    }
  }

  /** Stage 3: one balance event, carrying both totals, iff the total moved
      by strictly more than the threshold. */
  lemma DiffBalance(prev: Holdings, now: Holdings, nowOrder: seq<string>, unionOrder: seq<string>)
    requires IterationOrders(prev, now, nowOrder, unionOrder)
    ensures BalanceChange(prev.usdTotal, now.usdTotal) in Diff(prev, now, nowOrder, unionOrder) <==>
              Abs(now.usdTotal - prev.usdTotal) > BalanceThreshold
    ensures forall x :: x in Diff(prev, now, nowOrder, unionOrder) && x.BalanceChange? ==>
              x == BalanceChange(prev.usdTotal, now.usdTotal)
  {
    BalanceIn(Diff(prev, now, nowOrder, unionOrder),
              NewTokenEvents(prev.tokens, now.tokens, nowOrder),
              TokenChangeEvents(prev.tokens, now.tokens, unionOrder),
              OpenIncreaseEvents(LastSizes(prev.positions), now.positions),
              CloseEvents(prev.positions, now.positions),
              prev.usdTotal, now.usdTotal);
  }

  /** The balance events of a stage-sorted concatenation are those of its
      balance stage. */
  lemma BalanceIn(r: seq<Event>, a: seq<Event>, b: seq<Event>, d: seq<Event>, e: seq<Event>,
                  prevTotal: real, nowTotal: real)
    requires r == a + b + BalanceEvents(prevTotal, nowTotal) + d + e
    requires AllAtStage(a, 0) && AllAtStage(b, 1) && AllAtStage(d, 3) && AllAtStage(e, 4)
    ensures BalanceChange(prevTotal, nowTotal) in r <==> Abs(nowTotal - prevTotal) > BalanceThreshold
    ensures forall x :: x in r && x.BalanceChange? ==> x == BalanceChange(prevTotal, nowTotal)
  {
    var c := BalanceEvents(prevTotal, nowTotal);
    InStages(r, a, b, c, d, e, BalanceChange(prevTotal, nowTotal));
    forall x | x in r && x.BalanceChange?
      ensures x == BalanceChange(prevTotal, nowTotal)
    {
      InStages(r, a, b, c, d, e, x);
    }
  }

  /** Stage 4: a current position whose key no previous position has opens;
      one whose key is known increases iff it exceeds the growth factor
      times the size of the last previous position with that key. */
  lemma DiffOpensAndIncreases(prev: Holdings, now: Holdings, nowOrder: seq<string>, unionOrder: seq<string>)
    requires IterationOrders(prev, now, nowOrder, unionOrder)
    ensures forall x: Event :: x.Open? ==>
              (x in Diff(prev, now, nowOrder, unionOrder) <==>
                 Position(x.symbol, x.side, x.size) in now.positions
                 && !HasKey(prev.positions, PositionKey(x.symbol, x.side)))
    ensures forall x: Event :: x.Increase? ==>
              (x in Diff(prev, now, nowOrder, unionOrder) <==>
                 Position(x.symbol, x.side, x.after) in now.positions
                 && HasKey(prev.positions, PositionKey(x.symbol, x.side))
                 && x.before == LastSizes(prev.positions)[PositionKey(x.symbol, x.side)]
                 && x.after > x.before * GrowthFactor)
  {
    forall x: Event | x.Open? || x.Increase? {
      DiffMembership(prev, now, nowOrder, unionOrder, x);
    }
  }

  /** Stage 5: a previous position closes iff no current position has its
      (symbol, side) key; its last known size is reported. */
  lemma DiffCloses(prev: Holdings, now: Holdings, nowOrder: seq<string>, unionOrder: seq<string>)
    requires IterationOrders(prev, now, nowOrder, unionOrder)
    ensures forall x: Event :: x.Close? ==>
              (x in Diff(prev, now, nowOrder, unionOrder) <==>
                 Position(x.symbol, x.side, x.size) in prev.positions
                 && !HasKey(now.positions, PositionKey(x.symbol, x.side)))
  {
    forall x: Event | x.Close? {
      DiffMembership(prev, now, nowOrder, unionOrder, x);
    }
  }
}

/** Properties of the diff engine that relate it to its inputs as a whole:
    no change gives no events, first sight, side flips, and how often each
    event can occur. */
module DiffProperties {
  import opened Common
  import opened Snapshots
  import opened DiffEngine

  // ---------------------------------------------------------------------
  // Stages that stay silent

  lemma NoNewTokensFromSelf(t: TokenMap, order: seq<string>)
    ensures NewTokenEvents(t, t, order) == []
  {
    if order != [] {
      NoNewTokensFromSelf(t, order[1..]);
    }
  }

  lemma NoTokenChangesFromSelf(t: TokenMap, order: seq<string>)
    ensures TokenChangeEvents(t, t, order) == []
  {
    if order != [] {
      NoTokenChangesFromSelf(t, order[1..]);
    }
  }

  /** No current position opens or increases when each has a known key and
      stays within the growth factor of the size recorded for it. */
  lemma {:induction false} NoOpensWhenCovered(lookup: map<PositionKey, real>, now: seq<Position>)
    requires forall p :: p in now ==> p.Key() in lookup && p.sizeUsd <= lookup[p.Key()] * GrowthFactor
    ensures OpenIncreaseEvents(lookup, now) == []
  {
    if now != [] {
      assert now[0] in now;
      NoOpensWhenCovered(lookup, now[1..]);
    }
  }

  lemma {:induction false} NoClosesWhenKept(prev: seq<Position>, now: seq<Position>)
    requires forall p :: p in prev ==> HasKey(now, p.Key())
    ensures CloseEvents(prev, now) == []
  {
    if prev != [] {
      assert prev[0] in prev;
      NoClosesWhenKept(prev[1..], now);
    }
  }

  /** With distinct keys, the size recorded for each position's key is its
      own size. */
  lemma LastSizesOfDistinct(ps: seq<Position>)
    requires DistinctKeys(ps)
    ensures forall p :: p in ps ==> p.Key() in LastSizes(ps) && LastSizes(ps)[p.Key()] == p.sizeUsd
  {
    forall p | p in ps
      ensures p.Key() in LastSizes(ps) && LastSizes(ps)[p.Key()] == p.sizeUsd
    {
      var i :| 0 <= i < |ps| && ps[i] == p;
      assert forall j :: i < j < |ps| ==> ps[j].Key() != ps[i].Key();
    }
  }

  /** Diffing a snapshot against itself yields no event at all, provided no
      two positions share a (symbol, side) key and no size is negative. */
  lemma DiffOfSameIsEmpty(h: Holdings, nowOrder: seq<string>, unionOrder: seq<string>)
    requires IterationOrders(h, h, nowOrder, unionOrder)
    requires DistinctKeys(h.positions)
    requires forall p :: p in h.positions ==> p.sizeUsd >= 0.0
    ensures Diff(h, h, nowOrder, unionOrder) == []
  {
    NoNewTokensFromSelf(h.tokens, nowOrder);
    NoTokenChangesFromSelf(h.tokens, unionOrder);
    LastSizesOfDistinct(h.positions);
    NoOpensWhenCovered(LastSizes(h.positions), h.positions);
    forall p | p in h.positions
      ensures HasKey(h.positions, p.Key())
    {
    }
    NoClosesWhenKept(h.positions, h.positions);
    DiffIsConcat(h, h, nowOrder, unionOrder);
  }

  /** The distinct-keys premise above is needed: two positions with one key,
      the larger first, read as an increase against themselves, because the
      lookup keeps the last (smaller) one. */
  lemma DuplicateKeysBreakSelfDiff()
    ensures var h := Holdings(map[], [Position("ETH", Long, 100.0), Position("ETH", Long, 10.0)], 0.0);
            Diff(h, h, [], []) == [Increase("ETH", Long, 10.0, 100.0)]
  {
    var h := Holdings(map[], [Position("ETH", Long, 100.0), Position("ETH", Long, 10.0)], 0.0);
    var ps := h.positions;
    assert MapsTo(LastSizes(ps), PositionKey("ETH", Long), 10.0) by {
      assert |ps| == 2 && ps[1].Key() == PositionKey("ETH", Long);
    }
    assert HasKey(ps, PositionKey("ETH", Long)) by { assert ps[0] in ps; }
    DiffIsConcat(h, h, [], []);
  }

  // ---------------------------------------------------------------------
  // First sight and flips

  /** An address seen for the first time: every current token is new, a
      token worth at least the noise floor is also a BUY from 0, every
      current position opens, and nothing closes, increases or is sold
      unless its value is negative. */
  lemma FirstSight(now: Holdings, nowOrder: seq<string>, unionOrder: seq<string>)
    requires IterationOrders(EmptyHoldings, now, nowOrder, unionOrder)
    ensures forall s :: s in now.tokens ==> NewToken(s, now.tokens[s]) in Diff(EmptyHoldings, now, nowOrder, unionOrder)
    ensures forall s :: s in now.tokens ==>
              (Buy(s, 0.0, now.tokens[s]) in Diff(EmptyHoldings, now, nowOrder, unionOrder) <==> now.tokens[s] >= NoiseFloor)
    ensures forall p :: p in now.positions ==>
              Open(p.symbol, p.side, p.sizeUsd) in Diff(EmptyHoldings, now, nowOrder, unionOrder)
    ensures forall x :: x in Diff(EmptyHoldings, now, nowOrder, unionOrder) ==> !x.Close? && !x.Increase?
    ensures forall x :: x in Diff(EmptyHoldings, now, nowOrder, unionOrder) && x.Sell? ==> x.after <= -NoiseFloor
  {
    DiffNewTokens(EmptyHoldings, now, nowOrder, unionOrder);
    DiffTokenChanges(EmptyHoldings, now, nowOrder, unionOrder);
    DiffOpensAndIncreases(EmptyHoldings, now, nowOrder, unionOrder);
    DiffCloses(EmptyHoldings, now, nowOrder, unionOrder);
    forall p | p in now.positions
      ensures Open(p.symbol, p.side, p.sizeUsd) in Diff(EmptyHoldings, now, nowOrder, unionOrder)
    {
      assert Position(p.symbol, p.side, p.sizeUsd) == p;
    }
  }

  /** A position that flips side, with tokens and total unchanged, is one
      CLOSE of the old side and one OPEN of the new side, never a single
      event. */
  lemma FlipIsCloseThenOpen(tokens: TokenMap, total: real, s: string, before: real, after: real,
                            nowOrder: seq<string>, unionOrder: seq<string>)
    requires Enumerates(nowOrder, tokens.Keys) && Enumerates(unionOrder, tokens.Keys)
    ensures var prev := Holdings(tokens, [Position(s, Long, before)], total);
            var now := Holdings(tokens, [Position(s, Short, after)], total);
            IterationOrders(prev, now, nowOrder, unionOrder)
            && Diff(prev, now, nowOrder, unionOrder) == [Open(s, Short, after), Close(s, Long, before)]
  {
    assert tokens.Keys + tokens.Keys == tokens.Keys;
    NoNewTokensFromSelf(tokens, nowOrder);
    NoTokenChangesFromSelf(tokens, unionOrder);
    FlipPositionEvents(s, before, after);
    assert BalanceEvents(total, total) == [];
  }

  /** The position stages of a flip: the new side opens, the old side
      closes. */
  lemma FlipPositionEvents(s: string, before: real, after: real)
    ensures OpenIncreaseEvents(LastSizes([Position(s, Long, before)]), [Position(s, Short, after)]) == [Open(s, Short, after)]
    ensures CloseEvents([Position(s, Long, before)], [Position(s, Short, after)]) == [Close(s, Long, before)]
  {
    var prev := [Position(s, Long, before)];
    var now := [Position(s, Short, after)];
    assert !HasKey(prev, PositionKey(s, Short));
    assert PositionKey(s, Short) !in LastSizes(prev);
    assert now[1..] == [];
    assert !HasKey(now, PositionKey(s, Long));
    assert prev[1..] == [];
  }

  // ---------------------------------------------------------------------
  // Multiplicities

  /** In a stage-sorted concatenation, two events of the first stage both
      come from `a` and two of the second stage both come from `b`, so a
      symbol repeated in neither part is repeated nowhere. */
  lemma TokenStagesUnique(r: seq<Event>, a: seq<Event>, b: seq<Event>, c: seq<Event>, d: seq<Event>, e: seq<Event>)
    requires r == a + b + c + d + e
    requires AllAtStage(a, 0) && AllAtStage(b, 1) && AllAtStage(c, 2) && AllAtStage(d, 3) && AllAtStage(e, 4)
    requires forall i, j :: 0 <= i < j < |a| ==> SymbolOf(a[i]) != SymbolOf(a[j])
    requires forall i, j :: 0 <= i < j < |b| ==> SymbolOf(b[i]) != SymbolOf(b[j])
    ensures forall i, j :: 0 <= i < j < |r| && r[i].NewToken? && r[j].NewToken? ==> SymbolOf(r[i]) != SymbolOf(r[j])
    ensures forall i, j :: 0 <= i < j < |r| && IsTokenChange(r[i]) && IsTokenChange(r[j]) ==> SymbolOf(r[i]) != SymbolOf(r[j])
  {
    var rest := c + d + e;
    assert r == a + b + rest;
    forall i | 0 <= i < |r|
      ensures r[i].NewToken? ==> i < |a| && r[i] == a[i]
      ensures IsTokenChange(r[i]) ==> |a| <= i < |a| + |b| && r[i] == b[i - |a|]
    {
      if i < |a| {
        assert r[i] == a[i] && a[i] in a;
      } else if i < |a| + |b| {
        assert r[i] == b[i - |a|] && b[i - |a|] in b;
      } else {
        assert r[i] == rest[i - |a| - |b|] && rest[i - |a| - |b|] in rest;
      }
    }
  }

  /** Each symbol has at most one new-token event and at most one buy or
      sell in a diff. */
  lemma TokenEventsOncePerSymbol(prev: Holdings, now: Holdings, nowOrder: seq<string>, unionOrder: seq<string>)
    requires IterationOrders(prev, now, nowOrder, unionOrder)
    ensures var r := Diff(prev, now, nowOrder, unionOrder);
            forall i, j :: 0 <= i < j < |r| && r[i].NewToken? && r[j].NewToken? ==> SymbolOf(r[i]) != SymbolOf(r[j])
    ensures var r := Diff(prev, now, nowOrder, unionOrder);
            forall i, j :: 0 <= i < j < |r| && IsTokenChange(r[i]) && IsTokenChange(r[j]) ==> SymbolOf(r[i]) != SymbolOf(r[j])
  {
    var a := NewTokenEvents(prev.tokens, now.tokens, nowOrder);
    var b := TokenChangeEvents(prev.tokens, now.tokens, unionOrder);
    var c := BalanceEvents(prev.usdTotal, now.usdTotal);
    var d := OpenIncreaseEvents(LastSizes(prev.positions), now.positions);
    var e := CloseEvents(prev.positions, now.positions);
    assert NoDuplicates(nowOrder) && NoDuplicates(unionOrder);
    TokenStagesUnique(Diff(prev, now, nowOrder, unionOrder), a, b, c, d, e);
  }

  lemma {:induction false} CloseCount(prev: seq<Position>, now: seq<Position>, p: Position)
    ensures multiset(CloseEvents(prev, now))[Close(p.symbol, p.side, p.sizeUsd)] ==
              if HasKey(now, p.Key()) then 0 else multiset(prev)[p]
  {
    if prev != [] {
      assert prev == [prev[0]] + prev[1..];
      CloseCount(prev[1..], now, p);
    }
  }

  lemma {:induction false} OpenCount(lookup: map<PositionKey, real>, now: seq<Position>, p: Position)
    ensures multiset(OpenIncreaseEvents(lookup, now))[Open(p.symbol, p.side, p.sizeUsd)] ==
              if p.Key() in lookup then 0 else multiset(now)[p]
  {
    if now != [] {
      assert now == [now[0]] + now[1..];
      OpenCount(lookup, now[1..], p);
    }
  }

  lemma {:induction false} IncreaseCount(lookup: map<PositionKey, real>, now: seq<Position>, p: Position, before: real)
    ensures multiset(OpenIncreaseEvents(lookup, now))[Increase(p.symbol, p.side, before, p.sizeUsd)] ==
              if p.Key() in lookup && lookup[p.Key()] == before && p.sizeUsd > before * GrowthFactor
              then multiset(now)[p] else 0
  {
    if now != [] {
      assert now == [now[0]] + now[1..];
      IncreaseCount(lookup, now[1..], p, before);
    }
  }

  /** How often a position event occurs in a concatenation of stages. */
  lemma CountInStages(r: seq<Event>, a: seq<Event>, b: seq<Event>, c: seq<Event>, d: seq<Event>, e: seq<Event>, x: Event)
    requires r == a + b + c + d + e
    requires AllAtStage(a, 0) && AllAtStage(b, 1) && AllAtStage(c, 2) && AllAtStage(d, 3) && AllAtStage(e, 4)
    ensures Stage(x) == 3 ==> multiset(r)[x] == multiset(d)[x]
    ensures Stage(x) == 4 ==> multiset(r)[x] == multiset(e)[x]
  {
    assert multiset(r) == multiset(a) + multiset(b) + multiset(c) + multiset(d) + multiset(e);
    if Stage(x) >= 3 {
      assert x !in a && x !in b && x !in c;
    }
    if Stage(x) == 3 {
      assert x !in e;
    } else if Stage(x) == 4 {
      assert x !in d;
    }
  }

  /** The CLOSE count of a stage-sorted concatenation ending in the
      CLOSE stage. */
  lemma CloseCountIn(r: seq<Event>, a: seq<Event>, b: seq<Event>, c: seq<Event>, d: seq<Event>,
                     prev: seq<Position>, now: seq<Position>, p: Position)
    requires r == a + b + c + d + CloseEvents(prev, now)
    requires AllAtStage(a, 0) && AllAtStage(b, 1) && AllAtStage(c, 2) && AllAtStage(d, 3)
    ensures multiset(r)[Close(p.symbol, p.side, p.sizeUsd)] == if HasKey(now, p.Key()) then 0 else multiset(prev)[p]
  {
    CountInStages(r, a, b, c, d, CloseEvents(prev, now), Close(p.symbol, p.side, p.sizeUsd));
    CloseCount(prev, now, p);
  }

  /** The OPEN count of a stage-sorted concatenation whose fourth stage is
      the open-and-increase stage. */
  lemma OpenCountIn(r: seq<Event>, a: seq<Event>, b: seq<Event>, c: seq<Event>, e: seq<Event>,
                    lookup: map<PositionKey, real>, now: seq<Position>, p: Position)
    requires r == a + b + c + OpenIncreaseEvents(lookup, now) + e
    requires AllAtStage(a, 0) && AllAtStage(b, 1) && AllAtStage(c, 2) && AllAtStage(e, 4)
    ensures multiset(r)[Open(p.symbol, p.side, p.sizeUsd)] == if p.Key() in lookup then 0 else multiset(now)[p]
  {
    CountInStages(r, a, b, c, OpenIncreaseEvents(lookup, now), e, Open(p.symbol, p.side, p.sizeUsd));
    OpenCount(lookup, now, p);
  }

  /** The INCREASE count of a stage-sorted concatenation whose fourth
      stage is the open-and-increase stage. */
  lemma IncreaseCountIn(r: seq<Event>, a: seq<Event>, b: seq<Event>, c: seq<Event>, e: seq<Event>,
                        lookup: map<PositionKey, real>, now: seq<Position>, p: Position, before: real)
    requires r == a + b + c + OpenIncreaseEvents(lookup, now) + e
    requires AllAtStage(a, 0) && AllAtStage(b, 1) && AllAtStage(c, 2) && AllAtStage(e, 4)
    ensures multiset(r)[Increase(p.symbol, p.side, before, p.sizeUsd)] ==
              if p.Key() in lookup && lookup[p.Key()] == before && p.sizeUsd > before * GrowthFactor
              then multiset(now)[p] else 0
  {
    CountInStages(r, a, b, c, OpenIncreaseEvents(lookup, now), e, Increase(p.symbol, p.side, before, p.sizeUsd));
    IncreaseCount(lookup, now, p, before);
  }

  /** One CLOSE per previous position whose key is gone: two equal
      previous positions close twice. */
  lemma OneClosePerPosition(prev: Holdings, now: Holdings, nowOrder: seq<string>, unionOrder: seq<string>, p: Position)
    requires IterationOrders(prev, now, nowOrder, unionOrder)
    ensures multiset(Diff(prev, now, nowOrder, unionOrder))[Close(p.symbol, p.side, p.sizeUsd)] ==
              if HasKey(now.positions, p.Key()) then 0 else multiset(prev.positions)[p]
  {
    CloseCountIn(Diff(prev, now, nowOrder, unionOrder),
                 NewTokenEvents(prev.tokens, now.tokens, nowOrder),
                 TokenChangeEvents(prev.tokens, now.tokens, unionOrder),
                 BalanceEvents(prev.usdTotal, now.usdTotal),
                 OpenIncreaseEvents(LastSizes(prev.positions), now.positions),
                 prev.positions, now.positions, p);
  }

  /** One OPEN per current position whose key is new. */
  lemma OneOpenPerPosition(prev: Holdings, now: Holdings, nowOrder: seq<string>, unionOrder: seq<string>, p: Position)
    requires IterationOrders(prev, now, nowOrder, unionOrder)
    ensures multiset(Diff(prev, now, nowOrder, unionOrder))[Open(p.symbol, p.side, p.sizeUsd)] ==
              if HasKey(prev.positions, p.Key()) then 0 else multiset(now.positions)[p]
  {
    OpenCountIn(Diff(prev, now, nowOrder, unionOrder),
                NewTokenEvents(prev.tokens, now.tokens, nowOrder),
                TokenChangeEvents(prev.tokens, now.tokens, unionOrder),
                BalanceEvents(prev.usdTotal, now.usdTotal),
                CloseEvents(prev.positions, now.positions),
                LastSizes(prev.positions), now.positions, p);
  }

  /** One INCREASE per current position that grew past the growth factor
      over the last previous size under its key. */
  lemma OneIncreasePerPosition(prev: Holdings, now: Holdings, nowOrder: seq<string>, unionOrder: seq<string>,
                               p: Position, before: real)
    requires IterationOrders(prev, now, nowOrder, unionOrder)
    ensures multiset(Diff(prev, now, nowOrder, unionOrder))[Increase(p.symbol, p.side, before, p.sizeUsd)] ==
              if MapsTo(LastSizes(prev.positions), p.Key(), before) && p.sizeUsd > before * GrowthFactor
              then multiset(now.positions)[p] else 0
  {
    IncreaseCountIn(Diff(prev, now, nowOrder, unionOrder),
                    NewTokenEvents(prev.tokens, now.tokens, nowOrder),
                    TokenChangeEvents(prev.tokens, now.tokens, unionOrder),
                    BalanceEvents(prev.usdTotal, now.usdTotal),
                    CloseEvents(prev.positions, now.positions),
                    LastSizes(prev.positions), now.positions, p, before);
  }
}

=== FILE: poll_cycle.dfy ===
/** One poll of one address: resolve a snapshot, diff it against the stored
    state, and replace the stored state by the snapshot. The store is the
    `state` dict, keyed by the lower-cased address. */
module PollCycle {
  import opened Common
  import opened Snapshots
  import opened Resolver
  import opened DiffEngine
  import opened DiffProperties

  /** What `process_wallet_sync` stores for an address: the three fields of
      the snapshot and the time of the poll. */
  datatype WalletState = WalletState(holdings: Holdings, updatedAt: string)

  type Store = map<string, WalletState>

  /** `get_wallet_state`: the stored holdings under the lower-cased address,
      or the empty baseline for an address never stored. */
  function GetWalletState(store: Store, addr: string): (h: Holdings)
    ensures Lower(addr) in store ==> h == store[Lower(addr)].holdings
    ensures Lower(addr) !in store ==> h == EmptyHoldings
  {
    if Lower(addr) in store then store[Lower(addr)].holdings else EmptyHoldings
  }

  /** `set_wallet_state`: the entry under the lower-cased address is
      replaced as a whole; every other entry is kept. */
  function SetWalletState(store: Store, addr: string, ws: WalletState): (r: Store)
    ensures r.Keys == store.Keys + {Lower(addr)}
    ensures r[Lower(addr)] == ws
    ensures forall k :: k in store && k != Lower(addr) ==> r[k] == store[k]
  {
    store[Lower(addr) := ws]
  }

  /** Reading back: an address written in any letter case reads what was
      written under any other spelling with the same lower case, and every
      other address reads what it read before. */
  lemma GetAfterSet(store: Store, a: string, ws: WalletState, b: string)
    ensures Lower(a) == Lower(b) ==> GetWalletState(SetWalletState(store, a, ws), b) == ws.holdings
    ensures Lower(a) != Lower(b) ==> GetWalletState(SetWalletState(store, a, ws), b) == GetWalletState(store, b)
  {
  }

  /** The outcome of one step: the new store and the events to send. */
  datatype CycleResult = CycleResult(store: Store, events: seq<Event>)

  /** The iteration orders the diff needs, whenever there is a snapshot to
      diff. The orders stand for Python's set and dict iteration order. */
  predicate OrdersFor(store: Store, addr: string, o: Outcomes, nowOrder: seq<string>, unionOrder: seq<string>) {
    Resolve(o).Some? ==> IterationOrders(GetWalletState(store, addr), Resolve(o).value.holdings, nowOrder, unionOrder)
  }

  /** `process_wallet_sync` for one address, with the provider outcomes and
      the clock given as inputs. */
  function ProcessWallet(store: Store, addr: string, o: Outcomes, nowOrder: seq<string>, unionOrder: seq<string>,
                         timestamp: string): (r: CycleResult)
    requires OrdersFor(store, addr, o, nowOrder, unionOrder)
    ensures Resolve(o).None? ==> r.store == store && r.events == []
    ensures Resolve(o).Some? ==>
              && Lower(addr) in r.store
              && r.store[Lower(addr)].holdings == Resolve(o).value.holdings
              && r.store[Lower(addr)].updatedAt == timestamp
              && r.events == Diff(GetWalletState(store, addr), Resolve(o).value.holdings, nowOrder, unionOrder)
    ensures forall k :: k != Lower(addr) ==> (k in r.store <==> k in store)
    ensures forall k :: k in store && k != Lower(addr) ==> r.store[k] == store[k]
  {
    match Resolve(o)
    case None => CycleResult(store, [])
    case Some(snap) =>
      var prev := GetWalletState(store, addr);
      var events := Diff(prev, snap.holdings, nowOrder, unionOrder);
      CycleResult(SetWalletState(store, addr, WalletState(snap.holdings, timestamp)), events)
  }

  /** An address never stored is diffed against the empty baseline: every
      token it holds is new and every position opens. */
  lemma UnseenAddress(store: Store, addr: string, o: Outcomes, nowOrder: seq<string>, unionOrder: seq<string>,
                      timestamp: string)
    requires Lower(addr) !in store
    requires OrdersFor(store, addr, o, nowOrder, unionOrder)
    ensures Resolve(o).Some? ==>
              var now := Resolve(o).value.holdings;
              && (forall s :: s in now.tokens ==>
                    NewToken(s, now.tokens[s]) in ProcessWallet(store, addr, o, nowOrder, unionOrder, timestamp).events)
              && (forall p :: p in now.positions ==>
                    Open(p.symbol, p.side, p.sizeUsd) in ProcessWallet(store, addr, o, nowOrder, unionOrder, timestamp).events)
  {
    if Resolve(o).Some? {
      FirstSight(Resolve(o).value.holdings, nowOrder, unionOrder);
    }
  }

  /** A second poll that resolves to the same snapshot, for the same address
      in any letter case, reports nothing and only moves the timestamp,
      provided the snapshot's positions have distinct keys and non-negative
      sizes. */
  lemma RepeatedObservationIsQuiet(store: Store, addr: string, addr2: string, o: Outcomes,
                                   nowOrder: seq<string>, unionOrder: seq<string>, t1: string, t2: string)
    requires Lower(addr) == Lower(addr2)
    requires OrdersFor(store, addr, o, nowOrder, unionOrder)
    requires Resolve(o).Some? ==> Enumerates(nowOrder, Resolve(o).value.holdings.tokens.Keys)
                                  && Enumerates(unionOrder, Resolve(o).value.holdings.tokens.Keys)
    requires Resolve(o).Some? ==> DistinctKeys(Resolve(o).value.holdings.positions)
    requires Resolve(o).Some? ==> forall p :: p in Resolve(o).value.holdings.positions ==> p.sizeUsd >= 0.0
    ensures var s1 := ProcessWallet(store, addr, o, nowOrder, unionOrder, t1).store;
            OrdersFor(s1, addr2, o, nowOrder, unionOrder)
            && ProcessWallet(s1, addr2, o, nowOrder, unionOrder, t2).events == []
            && (Resolve(o).Some? ==>
                  ProcessWallet(s1, addr2, o, nowOrder, unionOrder, t2).store
                  == s1[Lower(addr) := WalletState(Resolve(o).value.holdings, t2)])
  {
    var s1 := ProcessWallet(store, addr, o, nowOrder, unionOrder, t1).store;
    if Resolve(o).Some? {
      var h := Resolve(o).value.holdings;
      assert GetWalletState(s1, addr2) == h;
      assert h.tokens.Keys + h.tokens.Keys == h.tokens.Keys;
      DiffOfSameIsEmpty(h, nowOrder, unionOrder);
    }
  }
}

=== FILE: providers.dfy ===
/** The four snapshot providers, reduced to what they do once the upstream
    reply has been parsed into records: the HTTP requests themselves are
    inputs (`Response` and `Option` values), and each provider's
    aggregation loop is modelled as written. */
module Providers {
  import opened Common
  import opened Snapshots
  import opened Tally

  /** How one HTTP request ended: an exception, a non-2xx status, or a
      parsed body. */
  datatype Response<T> = Raised | NotOk | Ok(body: T)

  // ---------------------------------------------------------------------
  // CoinGlass: exchange assets plus Hyperliquid positions

  datatype CoinGlassAsset = CoinGlassAsset(symbol: string, balanceUsd: real)

  datatype CoinGlassPosition = CoinGlassPosition(symbol: string, positionValueUsd: real, positionSize: real)

  function AssetEntries(items: seq<CoinGlassAsset>): seq<Entry> {
    seq(|items|, i requires 0 <= i < |items| => Entry(items[i].symbol, items[i].balanceUsd))
  }

  /** The side of a signed position size: long when positive, short when
      negative, and no side at all for a zero size. */
  function SideOfSize(size: real): Side {
    if size > 0.0 then Long else if size < 0.0 then Short else NoSide
  }

  /** The position a CoinGlass record becomes when it is kept. */
  function CoinGlassPositionOf(item: CoinGlassPosition): Position {
    Position(item.symbol, SideOfSize(item.positionSize), Abs(item.positionValueUsd))
  }

  /** The positions loop: a record is kept iff the absolute value of its USD
      value reaches the minimum, and is stored with that absolute value. */
  function CoinGlassPositions(items: seq<CoinGlassPosition>, minUsd: real): (ps: seq<Position>)
    ensures |ps| <= |items|
    ensures forall p :: p in ps <==>
              exists i :: 0 <= i < |items| && Abs(items[i].positionValueUsd) >= minUsd
                          && p == CoinGlassPositionOf(items[i])
    ensures forall p :: p in ps ==> p.sizeUsd >= minUsd && p.sizeUsd >= 0.0
  {
    if items == [] then []
    else
      var rest := CoinGlassPositions(items[1..], minUsd);
      assert forall i :: 1 <= i < |items| ==> items[i] == items[1..][i - 1];
      if Abs(items[0].positionValueUsd) >= minUsd then [CoinGlassPositionOf(items[0])] + rest else rest
  }

  /** The loop keeps the records' order and multiplicity: it runs over a
      concatenation part by part, and one record gives one position or
      none. Together these fix the result for every list. */
  lemma {:induction false} CoinGlassPositionsAppend(a: seq<CoinGlassPosition>, b: seq<CoinGlassPosition>,
                                                    item: CoinGlassPosition, minUsd: real)
    ensures CoinGlassPositions(a + b, minUsd) == CoinGlassPositions(a, minUsd) + CoinGlassPositions(b, minUsd)
    ensures CoinGlassPositions([item], minUsd) ==
              if Abs(item.positionValueUsd) >= minUsd then [CoinGlassPositionOf(item)] else []
    decreases |a|
  {
    if a == [] {
      assert a + b == b;
    } else {
      assert (a + b)[0] == a[0];
      assert (a + b)[1..] == a[1..] + b;
      CoinGlassPositionsAppend(a[1..], b, item, minUsd);
    }
    assert [item][1..] == [];
  }

  /** `fetch_from_coinglass`. Without an API key, or when the asset request
      raises, there is no snapshot. Otherwise there always is one: a non-OK
      asset reply leaves the tokens empty, and a raising or non-OK positions
      request leaves the positions empty. The total counts every named asset
      balance and every kept position. */
  function CoinGlassFetch(
    hasKey: bool,
    assets: Response<seq<CoinGlassAsset>>,
    positions: Response<seq<CoinGlassPosition>>,
    minUsd: real): (r: Option<RawSnapshot>)
    ensures r.None? <==> !hasKey || assets.Raised?
    ensures r.Some? ==> r.value.source == CoinGlass && r.value.tokens.Some? && r.value.positions.Some?
    ensures r.Some? && !assets.Ok? ==> r.value.tokens.value == map[]
    ensures r.Some? && assets.Ok? ==> forall s :: s in r.value.tokens.value <==>
              s != "" && exists i :: 0 <= i < |assets.body| && assets.body[i].symbol == s
    ensures r.Some? && assets.Ok? ==> forall s :: s != "" ==>
              ValueOr0(r.value.tokens.value, s) == SumFor(AssetEntries(assets.body), s)
    ensures r.Some? && !positions.Ok? ==> r.value.positions.value == []
    ensures r.Some? && positions.Ok? ==> r.value.positions.value == CoinGlassPositions(positions.body, minUsd)
    ensures r.Some? ==> forall p :: p in r.value.positions.value ==> p.sizeUsd >= minUsd && p.sizeUsd >= 0.0
    ensures r.Some? ==> r.value.usdTotal == MapSum(r.value.tokens.value) + SizeTotal(r.value.positions.value)
  {
    if !hasKey || assets.Raised? then None
    else
      var es := if assets.Ok? then AssetEntries(assets.body) else [];
      assert assets.Ok? ==> forall i :: 0 <= i < |assets.body| ==> es[i].symbol == assets.body[i].symbol;
      var ps := if positions.Ok? then CoinGlassPositions(positions.body, minUsd) else [];
      TallySum(es);
      Some(RawSnapshot(CoinGlass, Some(SumBySymbol(es)), Some(ps), NamedTotal(es) + SizeTotal(ps)))
  }

  // ---------------------------------------------------------------------
  // DeBank: wallet asset list with prices

  datatype DeBankAsset = DeBankAsset(symbol: string, name: string, price: real, amount: real)

  /** The parsed `data` object: `total_usd_value` and `wallet_asset_list`. */
  datatype DeBankReply = DeBankReply(totalUsd: real, assets: seq<DeBankAsset>)

  /** The key a DeBank asset is tallied under: its symbol, or its name
      when the symbol is missing or empty. */
  function DeBankKey(a: DeBankAsset): string {
    if a.symbol != "" then a.symbol else a.name
  }

  function DeBankEntries(assets: seq<DeBankAsset>): seq<Entry> {
    seq(|assets|, i requires 0 <= i < |assets| => Entry(DeBankKey(assets[i]), assets[i].price * assets[i].amount))
  }

  /** `fetch_from_debank`. Any reply that parses gives a snapshot: tokens are
      `price * amount` summed per symbol (or name), there are no positions,
      and the total is the one DeBank reports, not the sum of the tokens. */
  function DeBankFetch(reply: Option<DeBankReply>): (r: Option<RawSnapshot>)
    ensures r.Some? <==> reply.Some?
    ensures r.Some? ==> r.value.source == DeBank && r.value.positions == Some([])
                        && r.value.usdTotal == reply.value.totalUsd && r.value.tokens.Some?
    ensures r.Some? ==> forall s :: s in r.value.tokens.value <==>
                          s != "" && exists i :: 0 <= i < |reply.value.assets| && DeBankKey(reply.value.assets[i]) == s
    ensures r.Some? ==> forall s :: s != "" ==>
                          ValueOr0(r.value.tokens.value, s) == SumFor(DeBankEntries(reply.value.assets), s)
  {
    match reply
    case None => None
    case Some(d) =>
      var es := DeBankEntries(d.assets);
      assert forall i :: 0 <= i < |d.assets| ==> es[i].symbol == DeBankKey(d.assets[i]);
      Some(RawSnapshot(DeBank, Some(SumBySymbol(es)), Some([]), d.totalUsd))
  }

  // ---------------------------------------------------------------------
  // DexScreener: liquidity of pairs found by searching the address

  datatype DexPair = DexPair(baseSymbol: string, liquidityUsd: real)

  function PairEntries(pairs: seq<DexPair>): seq<Entry> {
    seq(|pairs|, i requires 0 <= i < |pairs| => Entry(pairs[i].baseSymbol, pairs[i].liquidityUsd))
  }

  /** `fetch_from_dexscreener_addr`. Liquidity is summed per base symbol; a
      snapshot exists only when some pair has a base symbol. It carries no
      positions, and its total is the sum of the token values. */
  function DexScreenerFetch(pairs: Option<seq<DexPair>>): (r: Option<RawSnapshot>)
    ensures r.Some? <==> pairs.Some? && exists i :: 0 <= i < |pairs.value| && pairs.value[i].baseSymbol != ""
    ensures r.Some? ==> r.value.source == DexScreener && r.value.positions.None? && r.value.tokens.Some?
    ensures r.Some? ==> forall s :: s in r.value.tokens.value <==>
                          s != "" && exists i :: 0 <= i < |pairs.value| && pairs.value[i].baseSymbol == s
    ensures r.Some? ==> forall s :: s != "" ==>
                          ValueOr0(r.value.tokens.value, s) == SumFor(PairEntries(pairs.value), s)
    ensures r.Some? ==> r.value.usdTotal == MapSum(r.value.tokens.value)
  {
    match pairs
    case None => None
    case Some(ps) =>
      var es := PairEntries(ps);
      var tokens := SumBySymbol(es);
      assert forall i :: 0 <= i < |ps| ==> es[i].symbol == ps[i].baseSymbol;
      if |tokens| == 0 then
        assert forall i :: 0 <= i < |ps| ==> ps[i].baseSymbol !in tokens;
        None
      else
        TallySum(es);
        Some(RawSnapshot(DexScreener, Some(tokens), None, NamedTotal(es)))
  }

  // ---------------------------------------------------------------------
  // HyperDash: positions scraped from the trader page

  datatype HyperDashEntry = HyperDashEntry(symbol: string, market: string, notional: real, isLong: bool)

  /** The position a HyperDash record becomes when it is kept. */
  function HyperDashPositionOf(e: HyperDashEntry): Position {
    Position(if e.symbol != "" then e.symbol else e.market, if e.isLong then Long else Short, e.notional)
  }

  /** A record is kept iff its notional reaches the minimum (no absolute
      value is taken here, unlike CoinGlass). */
  function HyperDashPositions(entries: seq<HyperDashEntry>, minUsd: real): (ps: seq<Position>)
    ensures |ps| <= |entries|
    ensures forall p :: p in ps <==>
              exists i :: 0 <= i < |entries| && entries[i].notional >= minUsd
                          && p == HyperDashPositionOf(entries[i])
    ensures forall p :: p in ps ==> p.sizeUsd >= minUsd && p.side != NoSide
  {
    if entries == [] then []
    else
      var rest := HyperDashPositions(entries[1..], minUsd);
      assert forall i :: 1 <= i < |entries| ==> entries[i] == entries[1..][i - 1];
      if entries[0].notional >= minUsd then [HyperDashPositionOf(entries[0])] + rest else rest
  }

  /** As for CoinGlass: order and multiplicity of the kept records are
      preserved. */
  lemma {:induction false} HyperDashPositionsAppend(a: seq<HyperDashEntry>, b: seq<HyperDashEntry>,
                                                    entry: HyperDashEntry, minUsd: real)
    ensures HyperDashPositions(a + b, minUsd) == HyperDashPositions(a, minUsd) + HyperDashPositions(b, minUsd)
    ensures HyperDashPositions([entry], minUsd) ==
              if entry.notional >= minUsd then [HyperDashPositionOf(entry)] else []
    decreases |a|
  {
    if a == [] {
      assert a + b == b;
    } else {
      assert (a + b)[0] == a[0];
      assert (a + b)[1..] == a[1..] + b;
      HyperDashPositionsAppend(a[1..], b, entry, minUsd);
    }
    assert [entry][1..] == [];
  }

  /** `fetch_from_hyperdash`. A snapshot exists only when some position is
      kept; it carries no tokens and its total is the sum of the kept sizes.
      `None` input stands for a non-OK reply, a page without a positions
      array, or a parse failure. */
  function HyperDashFetch(entries: Option<seq<HyperDashEntry>>, minUsd: real): (r: Option<RawSnapshot>)
    ensures r.Some? <==> entries.Some? && exists i :: 0 <= i < |entries.value| && entries.value[i].notional >= minUsd
    ensures r.Some? ==> r.value.source == HyperDash && r.value.tokens.None? && r.value.positions.Some?
    ensures r.Some? ==> r.value.positions == Some(HyperDashPositions(entries.value, minUsd))
    ensures r.Some? ==> forall p :: p in r.value.positions.value ==> p.sizeUsd >= minUsd
    ensures r.Some? ==> r.value.usdTotal == SizeTotal(r.value.positions.value)
  {
    match entries
    case None => None
    case Some(es) =>
      var ps := HyperDashPositions(es, minUsd);
      assert forall i :: 0 <= i < |es| && es[i].notional >= minUsd ==> HyperDashPositionOf(es[i]) in ps;
      if ps == [] then
        None
      else
        assert ps[0] in ps;
        Some(RawSnapshot(HyperDash, None, Some(ps), SizeTotal(ps)))
  }
}

=== FILE: resolver.dfy ===
/** `detect_and_build_snapshots`: try the providers in a fixed order and
    keep the first answer, filling in the keys a provider left out. */
module Resolver {
  import opened Common
  import opened Snapshots
  import opened Providers

  /** What calling one provider produced: it raised, or it returned a
      snapshot or `None`. */
  datatype Attempt = Raised | Returned(result: Option<RawSnapshot>)

  /** A provider call whose result is truthy. Every snapshot a provider
      builds is a non-empty dict, so only `None` and a raise are falsy here. */
  predicate Yields(a: Attempt) {
    a.Returned? && a.result.Some?
  }

  /** The four provider calls for one address. */
  datatype Outcomes = Outcomes(coinglass: Attempt, debank: Attempt, dexscreener: Attempt, hyperdash: Attempt)

  /** The fixed priority order: CoinGlass, DeBank, DexScreener, HyperDash. */
  function InPriorityOrder(o: Outcomes): seq<Attempt> {
    [o.coinglass, o.debank, o.dexscreener, o.hyperdash]
  }

  /** The three `setdefault` calls: a missing `tokens` becomes `{}` and a
      missing `positions` becomes `[]`. Every provider sets `usd_total`. */
  function Normalize(raw: RawSnapshot): (s: Snapshot)
    ensures s.source == raw.source && s.holdings.usdTotal == raw.usdTotal
    ensures raw.tokens.Some? ==> s.holdings.tokens == raw.tokens.value
    ensures raw.positions.Some? ==> s.holdings.positions == raw.positions.value
    ensures raw.tokens.None? ==> s.holdings.tokens == map[]
    ensures raw.positions.None? ==> s.holdings.positions == []
  {
    Snapshot(raw.source, Holdings(raw.tokens.GetOr(map[]), raw.positions.GetOr([]), raw.usdTotal))
  }

  /** The loop over the providers: the result is the normalised answer of
      the first attempt that yields, and `None` only when none does. */
  function FirstYield(attempts: seq<Attempt>): (r: Option<Snapshot>)
    ensures r.None? <==> forall i :: 0 <= i < |attempts| ==> !Yields(attempts[i])
    ensures r.Some? ==>
              exists i :: 0 <= i < |attempts| && Yields(attempts[i])
                          && (forall j :: 0 <= j < i ==> !Yields(attempts[j]))
                          && r.value == Normalize(attempts[i].result.value)
  {
    if attempts == [] then None
    else if Yields(attempts[0]) then Some(Normalize(attempts[0].result.value))
    else
      var r := FirstYield(attempts[1..]);
      assert forall i :: 1 <= i < |attempts| ==> attempts[i] == attempts[1..][i - 1];
      if r.Some? then
        var k :| 0 <= k < |attempts[1..]| && Yields(attempts[1..][k])
                 && (forall j :: 0 <= j < k ==> !Yields(attempts[1..][j]))
                 && r.value == Normalize(attempts[1..][k].result.value);
        assert Yields(attempts[k + 1]);
        r
      else
        r
  }

  function Resolve(o: Outcomes): Option<Snapshot> {
    FirstYield(InPriorityOrder(o))
  }

  /** Priority without merging: the answer is exactly the normalised answer
      of the first provider in priority order that yields, whatever the
      later providers would have said; a raising provider is skipped like
      one that returned `None`; and there is no answer only when no
      provider yields. */
  lemma ResolvePriority(o: Outcomes)
    ensures Yields(o.coinglass) ==> Resolve(o) == Some(Normalize(o.coinglass.result.value))
    ensures !Yields(o.coinglass) && Yields(o.debank) ==>
              Resolve(o) == Some(Normalize(o.debank.result.value))
    ensures !Yields(o.coinglass) && !Yields(o.debank) && Yields(o.dexscreener) ==>
              Resolve(o) == Some(Normalize(o.dexscreener.result.value))
    ensures !Yields(o.coinglass) && !Yields(o.debank) && !Yields(o.dexscreener) ==>
              Resolve(o) == (if Yields(o.hyperdash) then Some(Normalize(o.hyperdash.result.value)) else None)
  {
    var a := InPriorityOrder(o);
    assert a[0] == o.coinglass && a[1] == o.debank && a[2] == o.dexscreener && a[3] == o.hyperdash;
    var r := FirstYield(a);
    if r.Some? {
      var i :| 0 <= i < |a| && Yields(a[i]) && (forall j :: 0 <= j < i ==> !Yields(a[j]))
               && r.value == Normalize(a[i].result.value);
    }
  }

  /** Whatever the resolver returns carries the source of the provider that
      produced it, all three fields, and the total that provider reported. */
  lemma ResolvedIsAttributed(o: Outcomes)
    ensures Resolve(o).Some? ==>
              exists i :: 0 <= i < 4 && Yields(InPriorityOrder(o)[i])
                          && Resolve(o).value.source == InPriorityOrder(o)[i].result.value.source
                          && Resolve(o).value.holdings.usdTotal == InPriorityOrder(o)[i].result.value.usdTotal
  {
  }

  /** CoinGlass with an API key shadows every other provider: unless its
      asset request raises, it always answers, even with empty tokens and
      positions after non-OK replies. */
  lemma CoinGlassWithKeyWins(o: Outcomes, hasKey: bool, assets: Response<seq<CoinGlassAsset>>,
                             positions: Response<seq<CoinGlassPosition>>, minUsd: real)
    requires o.coinglass == Returned(CoinGlassFetch(hasKey, assets, positions, minUsd))
    requires hasKey && !assets.Raised?
    ensures Resolve(o).Some? && Resolve(o).value.source == CoinGlass
  {
    ResolvePriority(o);
  }

  /** When CoinGlass gives nothing, a DeBank reply that parses decides the
      answer: DeBank's tokens, no positions, and DeBank's own total. */
  lemma DeBankReplyWins(o: Outcomes, reply: DeBankReply)
    requires !Yields(o.coinglass)
    requires o.debank == Returned(DeBankFetch(Some(reply)))
    ensures Resolve(o).Some? && Resolve(o).value.source == DeBank
    ensures Resolve(o).value.holdings.positions == [] && Resolve(o).value.holdings.usdTotal == reply.totalUsd
  {
    ResolvePriority(o);
  }

  /** The keys a provider leaves out come back empty: an answer taken from
      DexScreener has no positions and one taken from HyperDash no tokens. */
  lemma MissingKeysFilled(o: Outcomes, pairs: Option<seq<DexPair>>, entries: Option<seq<HyperDashEntry>>, minUsd: real)
    requires !Yields(o.coinglass) && !Yields(o.debank)
    requires o.dexscreener == Returned(DexScreenerFetch(pairs))
    requires o.hyperdash == Returned(HyperDashFetch(entries, minUsd))
    ensures Yields(o.dexscreener) ==>
              Resolve(o).Some? && Resolve(o).value.source == DexScreener && Resolve(o).value.holdings.positions == []
    ensures !Yields(o.dexscreener) && Yields(o.hyperdash) ==>
              Resolve(o).Some? && Resolve(o).value.source == HyperDash && Resolve(o).value.holdings.tokens == map[]
  {
    ResolvePriority(o);
  }
}

=== FILE: snapshots.dfy ===
/** The data the diff engine works on: what a provider reports about one
    wallet (token values, leveraged positions, a USD total) and the state
    kept per wallet between polls. */
module Snapshots {
  import opened Common

  /** A position's direction. CoinGlass reports `""` for a position of size
      zero; that is `NoSide` here. */
  datatype Side = Long | Short | NoSide

  /** Positions are compared by the pair (symbol, side): the same symbol on
      the other side is a different position. */
  datatype PositionKey = PositionKey(symbol: string, side: Side)

  datatype Position = Position(symbol: string, side: Side, sizeUsd: real) {
    function Key(): PositionKey {
      PositionKey(symbol, side)
    }
  }

  /** Token symbol to a USD magnitude. Depending on the provider this is a
      wallet balance or the DEX liquidity of pairs with that base token. */
  type TokenMap = map<string, real>

  /** The three fields the diff reads and `process_wallet_sync` stores. */
  datatype Holdings = Holdings(tokens: TokenMap, positions: seq<Position>, usdTotal: real)

  /** The baseline of an address never seen before. */
  const EmptyHoldings: Holdings := Holdings(map[], [], 0.0)

  /** The upstream services, in the order the resolver tries them. */
  datatype Provider = CoinGlass | DeBank | DexScreener | HyperDash

  /** A provider's answer before normalisation: DexScreener sets no
      `positions` key and HyperDash no `tokens` key. */
  datatype RawSnapshot = RawSnapshot(
    source: Provider,
    tokens: Option<TokenMap>,
    positions: Option<seq<Position>>,
    usdTotal: real)

  /** A normalised snapshot, attributed to the single provider it came from. */
  datatype Snapshot = Snapshot(source: Provider, holdings: Holdings)

  /** No two positions share a (symbol, side) key. */
  predicate DistinctKeys(ps: seq<Position>) {
    forall i, j :: 0 <= i < j < |ps| ==> ps[i].Key() != ps[j].Key()
  }

  /** Sum of `sizeUsd` over a list of positions. */
  function SizeTotal(ps: seq<Position>): real {
    if ps == [] then 0.0 else ps[0].sizeUsd + SizeTotal(ps[1..])
  }
}

=== FILE: solana_rpc.dfy ===
/** What the Solana JSON-RPC calls return, once parsed, and the
    latest-signature bookkeeping all three Solana watchers share. */
module SolanaRpc {
  import opened Common

  /** One entry of `preTokenBalances` / `postTokenBalances`: the mint and
      `uiTokenAmount.uiAmount`, which the node may send as `null`. */
  datatype TokenBalance = TokenBalance(mint: string, uiAmount: Option<real>)

  /** The `meta` object of a transaction. The balance lists hold lamports,
      one entry per account, the fee payer first; a missing token-balance
      list is written as the empty list, which is how the code reads it. */
  datatype Meta = Meta(
    preBalances: seq<int>,
    postBalances: seq<int>,
    preTokenBalances: seq<TokenBalance>,
    postTokenBalances: seq<TokenBalance>)

  /** A `getTransaction` result; `meta` may be missing or `null`. */
  datatype Transaction = Transaction(meta: Option<Meta>)

  /** What the RPC returned for one wallet in one pass of a watcher: its
      newest signatures, newest first, and the transaction fetched for the
      newest one (`None` when the call returned nothing). */
  datatype WalletInput = WalletInput(sigs: seq<string>, tx: Option<Transaction>)

  const LamportsPerSol: real := 1_000_000_000.0

  /** How much SOL left the first account (the fee payer), the lamport
      difference before and after divided by 10^9; negative when SOL came
      in. */
  function SolOutflow(meta: Meta): real
    requires |meta.preBalances| > 0 && |meta.postBalances| > 0
  {
    (meta.preBalances[0] - meta.postBalances[0]) as real / LamportsPerSol
  }

  // ---------------------------------------------------------------------
  // Latest-signature dedup

  /** Wallet address to the newest signature already handled. */
  type LastSeen = map<string, string>

  /** The outcome of looking at a wallet's newest signatures: nothing new,
      or a signature to handle together with the record updated to it. */
  datatype Observation = Unchanged | Fresh(signature: string, record: LastSeen)

  /** The shared step: with no signatures, or when the newest one (the list
      is newest first) is the one recorded, there is nothing to do and the
      record stays as it is. Otherwise the newest signature is recorded for
      this wallet, before anything is fetched, and no other wallet's entry
      changes. */
  function Observe(last: LastSeen, wallet: string, sigs: seq<string>): (r: Observation)
    ensures r.Unchanged? <==> sigs == [] || (wallet in last && last[wallet] == sigs[0])
    ensures r.Fresh? ==> r.signature == sigs[0]
    ensures r.Fresh? ==> r.record.Keys == last.Keys + {wallet} && r.record[wallet] == sigs[0]
    ensures r.Fresh? ==> forall w :: w in last && w != wallet ==> r.record[w] == last[w]
  {
    if sigs == [] then Unchanged
    else if wallet in last && last[wallet] == sigs[0] then Unchanged
    else Fresh(sigs[0], last[wallet := sigs[0]])
  }

  /** The record after an observation. */
  function RecordAfter(last: LastSeen, o: Observation): LastSeen {
    if o.Fresh? then o.record else last
  }

  /** Looking again with the same newest signature finds nothing new: the
      dedup is idempotent. */
  lemma ObserveIdempotent(last: LastSeen, wallet: string, sigs: seq<string>)
    ensures Observe(RecordAfter(last, Observe(last, wallet, sigs)), wallet, sigs) == Unchanged
  {
  }

  /** Only the newest signature matters: lists with the same head give the
      same observation, whatever older signatures follow. */
  lemma ObserveReadsOnlyNewest(last: LastSeen, wallet: string, sigs: seq<string>, sigs2: seq<string>)
    requires sigs != [] && sigs2 != [] && sigs[0] == sigs2[0]
    ensures Observe(last, wallet, sigs) == Observe(last, wallet, sigs2)
  {
  }

  // ---------------------------------------------------------------------
  // One pass over the wallet list

  /** The record after one pass of a watcher over `wallets`, `inputs[i]`
      being what the RPC returned for `wallets[i]`: each wallet in turn
      goes through the dedup step. */
  function RecordsAfter(last: LastSeen, wallets: seq<string>, inputs: seq<WalletInput>): LastSeen
    requires |inputs| == |wallets|
    decreases |wallets|
  {
    if wallets == [] then last
    else RecordsAfter(RecordAfter(last, Observe(last, wallets[0], inputs[0].sigs)), wallets[1..], inputs[1..])
  }

  /** Some listed wallet had signatures in this pass. */
  predicate SeenIn(w: string, wallets: seq<string>, inputs: seq<WalletInput>)
    requires |inputs| == |wallets|
  {
    exists i :: 0 <= i < |wallets| && wallets[i] == w && inputs[i].sigs != []
  }

  /** Over a duplicate-free wallet list, a pass records the newest signature
      of every wallet that had signatures, whether or not it was new, and
      keeps the entry of every other wallet; nothing else gains an entry. */
  lemma {:induction false} RecordsAfterSpec(last: LastSeen, wallets: seq<string>, inputs: seq<WalletInput>)
    requires |inputs| == |wallets| && NoDuplicates(wallets)
    ensures forall w :: w in RecordsAfter(last, wallets, inputs) <==> w in last || SeenIn(w, wallets, inputs)
    ensures forall i :: 0 <= i < |wallets| && inputs[i].sigs != [] ==>
              MapsTo(RecordsAfter(last, wallets, inputs), wallets[i], inputs[i].sigs[0])
    ensures forall w :: w in last && !SeenIn(w, wallets, inputs) ==> MapsTo(RecordsAfter(last, wallets, inputs), w, last[w])
    decreases |wallets|
  {
    if wallets != [] {
      var w0 := wallets[0];
      var m := RecordAfter(last, Observe(last, w0, inputs[0].sigs));
      var ws := wallets[1..];
      var ins := inputs[1..];
      var r := RecordsAfter(m, ws, ins);
      assert r == RecordsAfter(last, wallets, inputs);
      assert forall k :: 0 <= k < |ws| ==> ws[k] == wallets[k + 1] && ins[k] == inputs[k + 1];
      assert forall k :: 0 <= k < |ws| ==> ws[k] != w0;
      RecordsAfterSpec(m, ws, ins);
      assert !SeenIn(w0, ws, ins);
      forall w
        ensures SeenIn(w, wallets, inputs) <==> (w == w0 && inputs[0].sigs != []) || SeenIn(w, ws, ins)
      {
        if SeenIn(w, wallets, inputs) {
          var i :| 0 <= i < |wallets| && wallets[i] == w && inputs[i].sigs != [];
          if i > 0 {
            assert ws[i - 1] == w && ins[i - 1].sigs != [];
          }
        }
        if SeenIn(w, ws, ins) {
          var k :| 0 <= k < |ws| && ws[k] == w && ins[k].sigs != [];
          assert wallets[k + 1] == w && inputs[k + 1].sigs != [];
        }
        if w == w0 && inputs[0].sigs != [] {
          assert wallets[0] == w;
        }
      }
      forall i | 0 <= i < |wallets| && inputs[i].sigs != []
        ensures MapsTo(r, wallets[i], inputs[i].sigs[0])
      {
        if i == 0 {
          assert MapsTo(m, w0, inputs[0].sigs[0]);
        } else {
          assert ws[i - 1] == wallets[i] && ins[i - 1] == inputs[i];
        }
      }
    }
  }
}

=== FILE: solana_tracker.dfy ===
/** `check_wallet`: report the newest transaction of an address once. */
module SolanaTracker {
  import opened Common
  import opened SolanaRpc

  /** `check_wallet(address)`. `sigs` is what `get_signatures` returned,
      newest first, and `fetched` what `get_transaction` returns for the
      newest one (it may be `None`). The result is the updated map and the
      value returned. */
  function CheckWallet<T>(last: LastSeen, address: string, sigs: seq<string>, fetched: Option<T>): (r: (LastSeen, Option<T>))
    ensures sigs == [] ==> r == (last, None)
    ensures sigs != [] && address in last && last[address] == sigs[0] ==> r == (last, None)
    ensures sigs != [] && (address !in last || last[address] != sigs[0]) ==>
              && r.1 == fetched
              && r.0.Keys == last.Keys + {address}
              && r.0[address] == sigs[0]
              && (forall a :: a in last && a != address ==> r.0[a] == last[a])
  {
    match Observe(last, address, sigs)
    case Unchanged => (last, None)
    case Fresh(_, record) => (record, fetched)
  }

  /** A second call that sees the same newest signature returns `None` and
      leaves the map as the first call left it. */
  lemma CheckWalletTwice<T>(last: LastSeen, address: string, sigs: seq<string>, fetched: Option<T>, fetched2: Option<T>)
    ensures var (m1, _) := CheckWallet(last, address, sigs, fetched);
            CheckWallet(m1, address, sigs, fetched2) == (m1, None)
  {
  }
}

=== FILE: tally.dfy ===
/** The accumulation loop every provider uses to build its token dict:
    each record adds its value to the entry for its symbol (starting from
    0), and records whose symbol is missing or empty are skipped. */
module Tally {
  import opened Common
  import opened Snapshots

  /** One record of a provider's list, reduced to the symbol it is summed
      under and its USD amount. A missing symbol is written `""`, since the
      source skips both with the same `if sym:` test. */
  datatype Entry = Entry(symbol: string, amount: real)

  predicate Named(e: Entry) {
    e.symbol != ""
  }

  /** Reference definition: the total amount of the records named `s`. */
  function SumFor(es: seq<Entry>, s: string): real {
    if es == [] then 0.0
    else (if es[0].symbol == s then es[0].amount else 0.0) + SumFor(es[1..], s)
  }

  /** Reference definition: the total amount of all named records. */
  function NamedTotal(es: seq<Entry>): real {
    if es == [] then 0.0
    else (if Named(es[0]) then es[0].amount else 0.0) + NamedTotal(es[1..])
  }

  lemma {:induction false} SumForSnoc(es: seq<Entry>, e: Entry, s: string)
    ensures SumFor(es + [e], s) == SumFor(es, s) + (if e.symbol == s then e.amount else 0.0)
  {
    if es != [] {
      assert (es + [e])[1..] == es[1..] + [e];
      SumForSnoc(es[1..], e, s);
    }
  }

  lemma {:induction false} NamedTotalSnoc(es: seq<Entry>, e: Entry)
    ensures NamedTotal(es + [e]) == NamedTotal(es) + (if Named(e) then e.amount else 0.0)
  {
    if es != [] {
      assert (es + [e])[1..] == es[1..] + [e];
      NamedTotalSnoc(es[1..], e);
    }
  }

  /** The loop itself: each named record in turn adds its value to its
      symbol's entry. */
  function Accumulate(es: seq<Entry>): TokenMap
    decreases |es|
  {
    if es == [] then map[]
    else
      var m0 := Accumulate(es[..|es| - 1]);
      var e := es[|es| - 1];
      if e.symbol == "" then m0 else m0[e.symbol := ValueOr0(m0, e.symbol) + e.amount]
  }

  lemma {:induction false} AccumulateSpec(es: seq<Entry>)
    ensures forall s :: s in Accumulate(es) <==> s != "" && exists i :: 0 <= i < |es| && es[i].symbol == s
    ensures forall s :: s != "" ==> ValueOr0(Accumulate(es), s) == SumFor(es, s)
    decreases |es|
  {
    if es != [] {
      var init := es[..|es| - 1];
      var e := es[|es| - 1];
      assert es == init + [e];
      AccumulateSpec(init);
      forall s {
        SumForSnoc(init, e, s);
      }
      assert forall i :: 0 <= i < |init| ==> init[i] == es[i];
    }
  }

  /** The dict the loop builds: exactly the named symbols are keys, and each
      key holds the sum of the amounts of its records. */
  function SumBySymbol(es: seq<Entry>): (m: TokenMap)
    ensures forall s :: s in m <==> s != "" && exists i :: 0 <= i < |es| && es[i].symbol == s
    ensures forall s :: s != "" ==> ValueOr0(m, s) == SumFor(es, s)
  {
    AccumulateSpec(es);
    Accumulate(es)
  }

  // ---------------------------------------------------------------------
  // The sum of a dict's values

  /** Some key of a non-empty dict. */
  ghost function Pick(m: TokenMap): (k: string)
    requires |m| > 0
    ensures k in m
  {
    var k :| k in m; k
  }

  lemma RemoveShrinks(m: TokenMap, k: string)
    requires k in m
    ensures |m - {k}| == |m| - 1
  {
    assert (m - {k}).Keys == m.Keys - {k};
  }

  /** The sum of the values of a dict, in no particular order. */
  ghost function MapSum(m: TokenMap): real
    decreases |m|
  {
    if |m| == 0 then 0.0
    else
      var k := Pick(m);
      RemoveShrinks(m, k);
      m[k] + MapSum(m - {k})
  }

  /** Whichever key is taken out first, the sum comes out the same. */
  lemma {:induction false} MapSumRemove(m: TokenMap, k: string)
    requires k in m
    ensures MapSum(m) == m[k] + MapSum(m - {k})
    decreases |m|
  {
    var k0 := Pick(m);
    if k0 != k {
      RemoveShrinks(m, k0);
      RemoveShrinks(m, k);
      MapSumRemove(m - {k0}, k);
      MapSumRemove(m - {k}, k0);
      assert m - {k0} - {k} == m - {k} - {k0};
    }
  }

  lemma MapSumUpdate(m: TokenMap, k: string, v: real)
    ensures MapSum(m[k := v]) == MapSum(m) - ValueOr0(m, k) + v
  {
    MapSumRemove(m[k := v], k);
    assert m[k := v] - {k} == m - {k};
    if k in m {
      MapSumRemove(m, k);
    } else {
      assert m - {k} == m;
    }
  }

  lemma TallySumStep(es: seq<Entry>)
    requires es != []
    ensures MapSum(Accumulate(es)) == MapSum(Accumulate(es[..|es| - 1]))
                                   + (if Named(es[|es| - 1]) then es[|es| - 1].amount else 0.0)
  {
    var m0 := Accumulate(es[..|es| - 1]);
    var e := es[|es| - 1];
    if e.symbol != "" {
      var v := ValueOr0(m0, e.symbol) + e.amount;
      assert Accumulate(es) == m0[e.symbol := v];
      MapSumUpdate(m0, e.symbol, v);
    } else {
      assert Accumulate(es) == m0;
    }
  }

  /** The values of the tallied dict add up to the total amount of all named
      records, the running total a provider keeps alongside the dict. */
  lemma {:induction false} TallySum(es: seq<Entry>)
    ensures MapSum(SumBySymbol(es)) == NamedTotal(es)
    decreases |es|
  {
    if es != [] {
      var init := es[..|es| - 1];
      var e := es[|es| - 1];
      assert es == init + [e];
      TallySum(init);
      NamedTotalSnoc(init, e);
      TallySumStep(es);
    }
  }
}

=== FILE: trade_monitor.dfy ===
/** The trade watcher: for the newest transaction of a wallet that moved at
    least 1 SOL, report each token whose balance moved as a BUY or a SELL,
    judged from the direction of the SOL and token movements. */
module TradeMonitor {
  import opened Common
  import opened SolanaRpc

  /** `MIN_SOL` of the trade watcher. */
  const MinSolMove: real := 1.0

  datatype Action = Buy | Sell

  /** Which direction rule classifies a movement: the one in the code, or
      the corrected one (see `SwapsAreMisread` below). */
  datatype Rule = AsWritten | Corrected

  datatype TradeSignal = TradeSignal(action: Action, mint: string, tokenDiff: real, solChange: real)

  /** The classification of one token movement `diff` (post minus pre)
      given `solChange`, the SOL that left the first account. A zero
      movement is never reported. As written: SELL when SOL left and the
      token went down, BUY when SOL came in and the token went up.
      Corrected: BUY when SOL left and the token came in, SELL when the
      token left and SOL came in. */
  function Classify(rule: Rule, solChange: real, diff: real): (r: Option<Action>)
    ensures diff == 0.0 ==> r.None?
    ensures rule == AsWritten ==>
              (r == Some(Sell) <==> solChange > 0.0 && diff < 0.0) && (r == Some(Buy) <==> solChange < 0.0 && diff > 0.0)
  {
    if diff == 0.0 then None
    else
      match rule
      case AsWritten =>
        if solChange > 0.0 && diff < 0.0 then Some(Sell)
        else if solChange < 0.0 && diff > 0.0 then Some(Buy)
        else None
      case Corrected =>
        if solChange > 0.0 && diff > 0.0 then Some(Buy)
        else if solChange < 0.0 && diff < 0.0 then Some(Sell)
        else None
  }

  // ---------------------------------------------------------------------
  // Token balances

  function BalancePairs(tbs: seq<TokenBalance>): seq<(string, real)> {
    seq(|tbs|, i requires 0 <= i < |tbs| => (tbs[i].mint, tbs[i].uiAmount.GetOr(0.0)))
  }

  lemma BalanceMapKey(tbs: seq<TokenBalance>, mint: string)
    ensures mint in LastWins(BalancePairs(tbs)) <==> exists i :: 0 <= i < |tbs| && tbs[i].mint == mint
  {
    var kvs := BalancePairs(tbs);
    if mint in LastWins(kvs) {
      var i :| 0 <= i < |kvs| && kvs[i].0 == mint;
      assert tbs[i].mint == mint;
    }
    if exists i :: 0 <= i < |tbs| && tbs[i].mint == mint {
      var i :| 0 <= i < |tbs| && tbs[i].mint == mint;
      assert kvs[i].0 == mint;
    }
  }

  lemma BalanceMapValue(tbs: seq<TokenBalance>, i: int)
    requires 0 <= i < |tbs| && forall j :: i < j < |tbs| ==> tbs[j].mint != tbs[i].mint
    ensures MapsTo(LastWins(BalancePairs(tbs)), tbs[i].mint, tbs[i].uiAmount.GetOr(0.0))
  {
    var kvs := BalancePairs(tbs);
    assert forall j :: i < j < |kvs| ==> kvs[j].0 != kvs[i].0;
  }

  /** The balance dict of a balance list: one key per mint, holding the
      amount of the last entry for that mint, a `null` amount reading as 0. */
  function BalanceMap(tbs: seq<TokenBalance>): (m: map<string, real>)
    ensures forall mint :: mint in m <==> exists i :: 0 <= i < |tbs| && tbs[i].mint == mint
    ensures forall i :: 0 <= i < |tbs| && (forall j :: i < j < |tbs| ==> tbs[j].mint != tbs[i].mint) ==>
              MapsTo(m, tbs[i].mint, tbs[i].uiAmount.GetOr(0.0))
  {
    assert forall mint :: mint in LastWins(BalancePairs(tbs)) <==> exists i :: 0 <= i < |tbs| && tbs[i].mint == mint by {
      forall mint ensures mint in LastWins(BalancePairs(tbs)) <==> exists i :: 0 <= i < |tbs| && tbs[i].mint == mint {
        BalanceMapKey(tbs, mint);
      }
    }
    assert forall i :: 0 <= i < |tbs| && (forall j :: i < j < |tbs| ==> tbs[j].mint != tbs[i].mint) ==>
             MapsTo(LastWins(BalancePairs(tbs)), tbs[i].mint, tbs[i].uiAmount.GetOr(0.0)) by {
      forall i | 0 <= i < |tbs| && (forall j :: i < j < |tbs| ==> tbs[j].mint != tbs[i].mint)
        ensures MapsTo(LastWins(BalancePairs(tbs)), tbs[i].mint, tbs[i].uiAmount.GetOr(0.0))
      {
        BalanceMapValue(tbs, i);
      }
    }
    LastWins(BalancePairs(tbs))
  }

  /** A one-entry balance list reads as a one-entry dict. */
  lemma BalanceMapSingle(mint: string, amount: real)
    ensures BalanceMap([TokenBalance(mint, Some(amount))]) == map[mint := amount]
  {
    var kvs := BalancePairs([TokenBalance(mint, Some(amount))]);
    assert kvs == [(mint, amount)];
    assert kvs[..0] == [];
  }

  function Mints(tbs: seq<TokenBalance>): (r: seq<string>)
    ensures |r| == |tbs|
    ensures forall i :: 0 <= i < |tbs| ==> r[i] == tbs[i].mint
  {
    seq(|tbs|, i requires 0 <= i < |tbs| => tbs[i].mint)
  }

  /** The loop over the post-balance dict, iterating over `order`: one
      signal per mint whose movement the rule classifies. */
  function MintSignals(rule: Rule, order: seq<string>, pre: map<string, real>, post: map<string, real>, solChange: real)
    : (r: seq<TradeSignal>)
    requires forall mint :: mint in order ==> mint in post
    ensures forall t :: t in r <==>
              && t.mint in order
              && t.tokenDiff == post[t.mint] - ValueOr0(pre, t.mint)
              && t.solChange == solChange
              && Classify(rule, solChange, t.tokenDiff) == Some(t.action)
    ensures NoDuplicates(order) ==> forall i, j :: 0 <= i < j < |r| ==> r[i].mint != r[j].mint
  {
    if order == [] then []
    else
      var mint := order[0];
      var diff := post[mint] - ValueOr0(pre, mint);
      var rest := MintSignals(rule, order[1..], pre, post, solChange);
      assert forall i :: 0 <= i < |rest| ==> rest[i].mint in order[1..] by {
        forall i | 0 <= i < |rest| ensures rest[i].mint in order[1..] { assert rest[i] in rest; }
      }
      match Classify(rule, solChange, diff)
      case None => rest
      case Some(action) => [TradeSignal(action, mint, diff, solChange)] + rest
  }

  // ---------------------------------------------------------------------
  // One wallet of one pass

  /** A fetched transaction reaches the per-mint loop: it has `meta`, both
      SOL balance lists are non-empty, and at least 1 SOL moved either way. */
  predicate PastGates(tx: Option<Transaction>) {
    && tx.Some? && tx.value.meta.Some?
    && |tx.value.meta.value.preBalances| > 0 && |tx.value.meta.value.postBalances| > 0
    && Abs(SolOutflow(tx.value.meta.value)) >= MinSolMove
  }

  /** The signals of a fetched transaction. Without `meta` nothing is sent;
      an empty balance list raises inside the loop and nothing is sent; a
      SOL movement under 1 SOL either way is skipped. Otherwise each mint of
      the post balances, in dict order, is classified. */
  function SignalsOf(rule: Rule, tx: Option<Transaction>): (r: seq<TradeSignal>)
    ensures !PastGates(tx) ==> r == []
    ensures PastGates(tx) ==>
              var meta := tx.value.meta.value;
              var pre := BalanceMap(meta.preTokenBalances);
              var post := BalanceMap(meta.postTokenBalances);
              forall t :: t in r <==>
                && t.mint in Mints(meta.postTokenBalances)
                && t.tokenDiff == post[t.mint] - ValueOr0(pre, t.mint)
                && t.solChange == SolOutflow(meta)
                && Classify(rule, SolOutflow(meta), t.tokenDiff) == Some(t.action)
    ensures forall i, j :: 0 <= i < j < |r| ==> r[i].mint != r[j].mint
  {
    if tx.None? || tx.value.meta.None? then []
    else
      var meta := tx.value.meta.value;
      if |meta.preBalances| == 0 || |meta.postBalances| == 0 then []
      else if Abs(SolOutflow(meta)) < MinSolMove then []
      else
        var post := BalanceMap(meta.postTokenBalances);
        var order := Distinct(Mints(meta.postTokenBalances));
        assert forall mint :: mint in order ==> mint in post by {
          forall mint | mint in order ensures mint in post {
            var i :| 0 <= i < |Mints(meta.postTokenBalances)| && Mints(meta.postTokenBalances)[i] == mint;
          }
        }
        MintSignals(rule, order, BalanceMap(meta.preTokenBalances), post, SolOutflow(meta))
  }

  /** One sent message: the signal, with the wallet and the signature of
      the transaction it came from (the Solscan link). */
  datatype TradeMessage = TradeMessage(wallet: string, signature: string, signal: TradeSignal)

  /** No two messages report the same mint for the same wallet. */
  predicate OncePerWalletMint(msgs: seq<TradeMessage>) {
    forall i, j :: 0 <= i < j < |msgs| ==> msgs[i].wallet != msgs[j].wallet || msgs[i].signal.mint != msgs[j].signal.mint
  }

  /** The messages for the signals of one transaction, in signal order. */
  function Tag(wallet: string, signature: string, signals: seq<TradeSignal>): (r: seq<TradeMessage>)
    ensures |r| == |signals|
    ensures forall msg :: msg in r <==> msg.wallet == wallet && msg.signature == signature && msg.signal in signals
    ensures (forall i, j :: 0 <= i < j < |signals| ==> signals[i].mint != signals[j].mint) ==> OncePerWalletMint(r)
  {
    var r := seq(|signals|, i requires 0 <= i < |signals| => TradeMessage(wallet, signature, signals[i]));
    assert forall t :: t in signals ==> TradeMessage(wallet, signature, t) in r by {
      forall t | t in signals ensures TradeMessage(wallet, signature, t) in r {
        var i :| 0 <= i < |signals| && signals[i] == t;
        assert r[i] == TradeMessage(wallet, signature, t);
      }
    }
    r
  }

  /** `msg` is one of the messages for `wallet` in this pass: its newest
      signature was new, and `msg` reports one of the signals of its
      transaction under that signature. */
  predicate Sends(rule: Rule, last: LastSeen, wallet: string, input: WalletInput, msg: TradeMessage) {
    && Observe(last, wallet, input.sigs).Fresh?
    && msg.wallet == wallet && msg.signature == input.sigs[0]
    && msg.signal in SignalsOf(rule, input.tx)
  }

  /** One wallet of one pass of `monitor`: the dedup step, then the
      messages for the newest transaction. The newest signature is recorded
      before the transaction is fetched, so it is consumed even when the
      transaction, its `meta` or its signals turn out to be missing. */
  function TradeStep(rule: Rule, last: LastSeen, wallet: string, input: WalletInput): (r: (LastSeen, seq<TradeMessage>))
    ensures Observe(last, wallet, input.sigs).Unchanged? ==> r == (last, [])
    ensures Observe(last, wallet, input.sigs).Fresh? ==>
              r.0 == Observe(last, wallet, input.sigs).record && r.0[wallet] == input.sigs[0]
    ensures forall msg :: msg in r.1 <==> Sends(rule, last, wallet, input, msg)
    ensures Observe(last, wallet, input.sigs).Fresh? ==> |r.1| == |SignalsOf(rule, input.tx)|
    ensures OncePerWalletMint(r.1)
  {
    match Observe(last, wallet, input.sigs)
    case Unchanged => (last, [])
    case Fresh(sig, record) => (record, Tag(wallet, sig, SignalsOf(rule, input.tx)))
  }

  /** One pass of `monitor` over the wallet list, `inputs[i]` being what the
      RPC returned for `wallets[i]`: the record after the pass, and the
      messages sent, wallet by wallet. */
  function TradePass(rule: Rule, last: LastSeen, wallets: seq<string>, inputs: seq<WalletInput>)
    : (r: (LastSeen, seq<TradeMessage>))
    requires |inputs| == |wallets|
    ensures r.0 == RecordsAfter(last, wallets, inputs)
    ensures forall msg :: msg in r.1 ==> msg.wallet in wallets
    decreases |wallets|
  {
    if wallets == [] then (last, [])
    else
      var (m, msgs) := TradeStep(rule, last, wallets[0], inputs[0]);
      var (m', rest) := TradePass(rule, m, wallets[1..], inputs[1..]);
      assert forall msg :: msg in rest ==> msg.wallet in wallets by {
        forall msg | msg in rest ensures msg.wallet in wallets {
          var k :| 0 <= k < |wallets[1..]| && wallets[1..][k] == msg.wallet;
          assert wallets[k + 1] == msg.wallet;
        }
      }
      (m', msgs + rest)
  }

  /** `msg` is one of the messages for `wallets[i]`. */
  predicate SignalledAt(rule: Rule, last: LastSeen, wallets: seq<string>, inputs: seq<WalletInput>, i: int, msg: TradeMessage)
    requires |inputs| == |wallets|
  {
    0 <= i < |wallets| && Sends(rule, last, wallets[i], inputs[i], msg)
  }

  /** Over a duplicate-free wallet list, a pass sends exactly the signals of
      the transactions whose signature was new, each tagged with its wallet
      and signature. */
  lemma {:induction false} TradePassMessages(rule: Rule, last: LastSeen, wallets: seq<string>, inputs: seq<WalletInput>)
    requires |inputs| == |wallets| && NoDuplicates(wallets)
    ensures forall msg :: msg in TradePass(rule, last, wallets, inputs).1 <==>
              exists i :: SignalledAt(rule, last, wallets, inputs, i, msg)
    decreases |wallets|
  {
    if wallets != [] {
      var step := TradeStep(rule, last, wallets[0], inputs[0]);
      var rest := TradePass(rule, step.0, wallets[1..], inputs[1..]).1;
      assert NoDuplicates(wallets[1..]);
      TradePassMessages(rule, step.0, wallets[1..], inputs[1..]);
      PassUnfold(rule, last, wallets, inputs);
      forall msg
        ensures msg in step.1 + rest <==> exists i :: SignalledAt(rule, last, wallets, inputs, i, msg)
      {
        MessageOfPass(rule, last, wallets, inputs, step.1, rest, msg);
      }
    }
  }

  /** The step of `TradePassMessages` for one message: given the first
      wallet's messages `msgs` and, as the rest of the pass shows, the
      messages `rest` of the later wallets, the message is in both together
      iff some wallet is signalled for it. */
  lemma MessageOfPass(rule: Rule, last: LastSeen, wallets: seq<string>, inputs: seq<WalletInput>,
                      msgs: seq<TradeMessage>, rest: seq<TradeMessage>, msg: TradeMessage)
    requires |inputs| == |wallets| && NoDuplicates(wallets) && wallets != []
    requires msg in msgs <==> Sends(rule, last, wallets[0], inputs[0], msg)
    requires msg in rest <==>
             exists k :: SignalledAt(rule, TradeStep(rule, last, wallets[0], inputs[0]).0, wallets[1..], inputs[1..], k, msg)
    ensures msg in msgs + rest <==> exists i :: SignalledAt(rule, last, wallets, inputs, i, msg)
  {
    var m := TradeStep(rule, last, wallets[0], inputs[0]).0;
    if msg in msgs {
      assert SignalledAt(rule, last, wallets, inputs, 0, msg);
    } else if msg in rest {
      var k :| SignalledAt(rule, m, wallets[1..], inputs[1..], k, msg);
      ShiftSignalled(rule, last, wallets, inputs, k, msg);
    }
    if exists i :: SignalledAt(rule, last, wallets, inputs, i, msg) {
      var i :| SignalledAt(rule, last, wallets, inputs, i, msg);
      if i > 0 {
        ShiftSignalled(rule, last, wallets, inputs, i - 1, msg);
        assert SignalledAt(rule, m, wallets[1..], inputs[1..], i - 1, msg);
      }
    }
  }

  /** A pass's messages are the first wallet's followed by the rest's. */
  lemma PassUnfold(rule: Rule, last: LastSeen, wallets: seq<string>, inputs: seq<WalletInput>)
    requires |inputs| == |wallets| && wallets != []
    ensures var step := TradeStep(rule, last, wallets[0], inputs[0]);
            TradePass(rule, last, wallets, inputs).1 == step.1 + TradePass(rule, step.0, wallets[1..], inputs[1..]).1
  {
  }

  /** Over a duplicate-free wallet list, a pass reports each mint at most
      once per wallet: together with the step's count, every signal of a
      new transaction is sent exactly once. */
  lemma {:induction false} TradePassOncePerWalletMint(rule: Rule, last: LastSeen, wallets: seq<string>, inputs: seq<WalletInput>)
    requires |inputs| == |wallets| && NoDuplicates(wallets)
    ensures OncePerWalletMint(TradePass(rule, last, wallets, inputs).1)
    decreases |wallets|
  {
    if wallets != [] {
      var w0 := wallets[0];
      var step := TradeStep(rule, last, w0, inputs[0]);
      var ws := wallets[1..];
      var rest := TradePass(rule, step.0, ws, inputs[1..]).1;
      assert forall k :: 0 <= k < |ws| ==> ws[k] == wallets[k + 1] && ws[k] != w0;
      assert NoDuplicates(ws) && w0 !in ws;
      TradePassOncePerWalletMint(rule, step.0, ws, inputs[1..]);
      PassUnfold(rule, last, wallets, inputs);
      assert forall msg :: msg in step.1 ==> msg.wallet == w0;
      AppendOncePerWalletMint(step.1, rest, w0, ws);
    }
  }

  /** Messages for one wallet, followed by messages for other wallets, each
      reporting a mint at most once per wallet, still do. */
  lemma AppendOncePerWalletMint(msgs: seq<TradeMessage>, rest: seq<TradeMessage>, w0: string, ws: seq<string>)
    requires forall msg :: msg in msgs ==> msg.wallet == w0
    requires forall msg :: msg in rest ==> msg.wallet in ws
    requires w0 !in ws
    requires OncePerWalletMint(msgs) && OncePerWalletMint(rest)
    ensures OncePerWalletMint(msgs + rest)
  {
    var all := msgs + rest;
    forall i, j | 0 <= i < j < |all|
      ensures all[i].wallet != all[j].wallet || all[i].signal.mint != all[j].signal.mint
    {
      if j < |msgs| {
        assert all[i] == msgs[i] && all[j] == msgs[j];
      } else if i >= |msgs| {
        assert all[i] == rest[i - |msgs|] && all[j] == rest[j - |msgs|];
      } else {
        assert all[i] == msgs[i] && msgs[i] in msgs;
        assert all[j] == rest[j - |msgs|] && rest[j - |msgs|] in rest;
      }
    }
  }

  /** After the first wallet's step, a later, different wallet is reported
      exactly as it would have been from the record before that step. */
  lemma ShiftSignalled(rule: Rule, last: LastSeen, wallets: seq<string>, inputs: seq<WalletInput>, k: int, msg: TradeMessage)
    requires |inputs| == |wallets| && NoDuplicates(wallets) && 0 <= k < |wallets| - 1
    ensures SignalledAt(rule, TradeStep(rule, last, wallets[0], inputs[0]).0, wallets[1..], inputs[1..], k, msg)
            <==> SignalledAt(rule, last, wallets, inputs, k + 1, msg)
  {
    assert wallets[1..][k] == wallets[k + 1] != wallets[0];
    assert inputs[1..][k] == inputs[k + 1];
  }

  /** A mint that appears only in the pre balances never produces a
      signal. */
  lemma PreOnlyMintsAreSilent(rule: Rule, tx: Option<Transaction>, mint: string)
    requires tx.Some? && tx.value.meta.Some?
    requires forall tb :: tb in tx.value.meta.value.postTokenBalances ==> tb.mint != mint
    ensures forall t :: t in SignalsOf(rule, tx) ==> t.mint != mint
  {
    var meta := tx.value.meta.value;
    forall t | t in SignalsOf(rule, tx)
      ensures t.mint != mint
    {
      var i :| 0 <= i < |meta.postTokenBalances| && Mints(meta.postTokenBalances)[i] == t.mint;
      assert meta.postTokenBalances[i] in meta.postTokenBalances;
    }
  }

  /** The SOL gate: a transaction that moved under 1 SOL either way, i.e.
      fewer than 10^9 lamports, sends nothing, whatever its tokens did. */
  lemma SmallSolMovesAreSilent(rule: Rule, meta: Meta)
    requires |meta.preBalances| > 0 && |meta.postBalances| > 0
    requires -1_000_000_000 < meta.preBalances[0] - meta.postBalances[0] < 1_000_000_000
    ensures SignalsOf(rule, Some(Transaction(Some(meta)))) == []
  {
  }

  // ---------------------------------------------------------------------
  // The direction rule

  /** The rule as written only reports movements where SOL and the token
      move the same way. A swap that spends 5 SOL on 100 tokens, or sells
      100 tokens (leaving a zero balance for the mint) for 5 SOL, moves them
      in opposite directions, and is silently skipped. */
  lemma SwapsAreMisread()
    ensures var spend := Meta([10_000_000_000], [5_000_000_000], [], [TokenBalance("MINT", Some(100.0))]);
            SignalsOf(AsWritten, Some(Transaction(Some(spend)))) == []
    ensures var sell := Meta([5_000_000_000], [10_000_000_000], [TokenBalance("MINT", Some(100.0))], [TokenBalance("MINT", Some(0.0))]);
            SignalsOf(AsWritten, Some(Transaction(Some(sell)))) == []
  {
    SpendSignals(AsWritten);
    assert MintSignals(AsWritten, ["MINT"], map[], map["MINT" := 100.0], 5.0) == [] by {
      assert Classify(AsWritten, 5.0, 100.0) == None;
      assert ["MINT"][1..] == [];
      assert MintSignals(AsWritten, [], map[], map["MINT" := 100.0], 5.0) == [];
    }
    SellSignals(AsWritten);
    assert MintSignals(AsWritten, ["MINT"], map["MINT" := 100.0], map["MINT" := 0.0], -5.0) == [] by {
      assert Classify(AsWritten, -5.0, -100.0) == None;
      assert ["MINT"][1..] == [];
      assert MintSignals(AsWritten, [], map["MINT" := 100.0], map["MINT" := 0.0], -5.0) == [];
    }
  }

  /** The signals of the spend of 5 SOL on 100 tokens under either rule:
      one classification of the single mint. */
  lemma SpendSignals(rule: Rule)
    ensures var spend := Meta([10_000_000_000], [5_000_000_000], [], [TokenBalance("MINT", Some(100.0))]);
            SignalsOf(rule, Some(Transaction(Some(spend)))) == MintSignals(rule, ["MINT"], map[], map["MINT" := 100.0], 5.0)
  {
    var spend := Meta([10_000_000_000], [5_000_000_000], [], [TokenBalance("MINT", Some(100.0))]);
    assert SolOutflow(spend) == 5.0;
    BalanceMapSingle("MINT", 100.0);
    assert BalanceMap(spend.preTokenBalances) == map[];
    assert Distinct(Mints(spend.postTokenBalances)) == ["MINT"] by {
      assert Mints(spend.postTokenBalances) == ["MINT"];
    }
    SignalsPastGates(rule, spend);
  }

  /** The signals of the sale of 100 tokens for 5 SOL under either rule:
      one classification of the single mint, whose balance went from 100
      to 0. */
  lemma SellSignals(rule: Rule)
    ensures var sell := Meta([5_000_000_000], [10_000_000_000], [TokenBalance("MINT", Some(100.0))], [TokenBalance("MINT", Some(0.0))]);
            SignalsOf(rule, Some(Transaction(Some(sell)))) ==
              MintSignals(rule, ["MINT"], map["MINT" := 100.0], map["MINT" := 0.0], -5.0)
  {
    var sell := Meta([5_000_000_000], [10_000_000_000], [TokenBalance("MINT", Some(100.0))], [TokenBalance("MINT", Some(0.0))]);
    assert SolOutflow(sell) == -5.0;
    BalanceMapSingle("MINT", 100.0);
    BalanceMapSingle("MINT", 0.0);
    assert Distinct(Mints(sell.postTokenBalances)) == ["MINT"] by {
      assert Mints(sell.postTokenBalances) == ["MINT"];
    }
    SignalsPastGates(rule, sell);
  }

  /** With the corrected rule a token that came in while SOL left is a BUY
      and a token that left while SOL came in is a SELL; a movement of SOL
      and the token in the same direction is no trade. */
  lemma CorrectedFollowsSwap(solChange: real, diff: real)
    ensures Classify(Corrected, solChange, diff) == Some(Buy) <==> solChange > 0.0 && diff > 0.0
    ensures Classify(Corrected, solChange, diff) == Some(Sell) <==> solChange < 0.0 && diff < 0.0
    ensures Classify(Corrected, solChange, diff).Some? ==> Classify(AsWritten, solChange, diff).None?
  {
  }

  /** The signals of a transaction past both gates. */
  lemma SignalsPastGates(rule: Rule, meta: Meta)
    requires |meta.preBalances| > 0 && |meta.postBalances| > 0 && Abs(SolOutflow(meta)) >= MinSolMove
    requires forall mint :: mint in Distinct(Mints(meta.postTokenBalances)) ==> mint in BalanceMap(meta.postTokenBalances)
    ensures SignalsOf(rule, Some(Transaction(Some(meta)))) ==
              MintSignals(rule, Distinct(Mints(meta.postTokenBalances)), BalanceMap(meta.preTokenBalances),
                          BalanceMap(meta.postTokenBalances), SolOutflow(meta))
  {
  }

  /** The spend of 5 SOL on 100 tokens reads as one BUY under the corrected
      rule. */
  lemma CorrectedReadsSpend()
    ensures var spend := Meta([10_000_000_000], [5_000_000_000], [], [TokenBalance("MINT", Some(100.0))]);
            SignalsOf(Corrected, Some(Transaction(Some(spend)))) == [TradeSignal(Buy, "MINT", 100.0, 5.0)]
  {
    SpendSignals(Corrected);
    assert MintSignals(Corrected, ["MINT"], map[], map["MINT" := 100.0], 5.0) == [TradeSignal(Buy, "MINT", 100.0, 5.0)] by {
      assert Classify(Corrected, 5.0, 100.0) == Some(Buy);
      assert ["MINT"][1..] == [];
      assert MintSignals(Corrected, [], map[], map["MINT" := 100.0], 5.0) == [];
    }
  }

  /** The sale of 100 tokens for 5 SOL reads as one SELL under the
      corrected rule. */
  lemma CorrectedReadsSell()
    ensures var sell := Meta([5_000_000_000], [10_000_000_000], [TokenBalance("MINT", Some(100.0))], [TokenBalance("MINT", Some(0.0))]);
            SignalsOf(Corrected, Some(Transaction(Some(sell)))) == [TradeSignal(Sell, "MINT", -100.0, -5.0)]
  {
    SellSignals(Corrected);
    assert MintSignals(Corrected, ["MINT"], map["MINT" := 100.0], map["MINT" := 0.0], -5.0) == [TradeSignal(Sell, "MINT", -100.0, -5.0)] by {
      assert Classify(Corrected, -5.0, -100.0) == Some(Sell);
      assert ["MINT"][1..] == [];
      assert MintSignals(Corrected, [], map["MINT" := 100.0], map["MINT" := 0.0], -5.0) == [];
    }
  }
}

=== FILE: watch_list.dfy ===
/** The watch list: `get_wallets`, `add_wallet` and `remove_wallet` on the
    list kept in the bot's `bot_data`, and the same rules in the `/add` and
    `/remove` command handlers, which keep the list in a JSON file. */
module WatchList {
  import opened Common

  /** The `"wallets"` entry of `bot_data`: absent until first used. */
  type BotData = Option<seq<string>>

  /** `get_wallets`: the stored list, an empty one being created and
      stored on first use. */
  function GetWallets(data: BotData): (r: (BotData, seq<string>))
    ensures r.0 == Some(r.1)
    ensures data.Some? ==> r.0 == data
    ensures data.None? ==> r.1 == []
  {
    match data
    case Some(ws) => (data, ws)
    case None => (Some([]), [])
  }

  /** The index of the first occurrence of `x` in `l`. */
  function FirstIndex<T(==)>(l: seq<T>, x: T): (i: nat)
    requires x in l
    ensures i < |l| && l[i] == x
    ensures forall j :: 0 <= j < i ==> l[j] != x
  {
    if l[0] == x then 0 else 1 + FirstIndex(l[1..], x)
  }

  /** Python's list removal: the first occurrence of `x` is dropped. */
  function RemoveFirst<T(==)>(l: seq<T>, x: T): (r: seq<T>)
    requires x in l
    ensures exists i :: 0 <= i < |l| && l[i] == x && (forall j :: 0 <= j < i ==> l[j] != x) && r == l[..i] + l[i + 1..]
    ensures |r| == |l| - 1
    ensures multiset(r) == multiset(l) - multiset{x}
  {
    var i := FirstIndex(l, x);
    assert l == l[..i] + [x] + l[i + 1..];
    l[..i] + l[i + 1..]
  }

  /** `add_wallet` on the list itself: an absent address is appended at the
      end and the answer is `True`; a present one leaves the list as it is
      and the answer is `False`. */
  function Add(ws: seq<string>, address: string): (r: (seq<string>, bool))
    ensures r.1 <==> address !in ws
    ensures r.1 ==> r.0 == ws + [address]
    ensures !r.1 ==> r.0 == ws
    ensures address in r.0
  {
    if address !in ws then (ws + [address], true) else (ws, false)
  }

  /** `remove_wallet` on the list itself: a present address loses its first
      occurrence and the answer is `True`, everything else keeping its
      order; an absent one leaves the list as it is and the answer is
      `False`. */
  function Remove(ws: seq<string>, address: string): (r: (seq<string>, bool))
    ensures r.1 <==> address in ws
    ensures r.1 ==> exists i :: 0 <= i < |ws| && ws[i] == address
                               && (forall j :: 0 <= j < i ==> ws[j] != address)
                               && r.0 == ws[..i] + ws[i + 1..]
    ensures !r.1 ==> r.0 == ws
    ensures multiset(r.0) == multiset(ws) - multiset{address}
  {
    if address in ws then
      var i := FirstIndex(ws, address);
      (RemoveFirst(ws, address), true)
    else
      assert multiset(ws)[address] == 0;
      (ws, false)
  }

  /** `add_wallet(context, address)`. */
  function AddWallet(data: BotData, address: string): (r: (BotData, bool))
    ensures r.0.Some? && address in r.0.value
    ensures r.1 <==> address !in GetWallets(data).1
    ensures r.0 == Some(Add(GetWallets(data).1, address).0)
  {
    var ws := GetWallets(data).1;
    var (ws', added) := Add(ws, address);
    (Some(ws'), added)
  }

  /** `remove_wallet(context, address)`. */
  function RemoveWallet(data: BotData, address: string): (r: (BotData, bool))
    ensures r.0.Some?
    ensures r.1 <==> address in GetWallets(data).1
    ensures r.0 == Some(Remove(GetWallets(data).1, address).0)
  {
    var ws := GetWallets(data).1;
    var (ws', removed) := Remove(ws, address);
    (Some(ws'), removed)
  }

  /** Adding twice is adding once, and the second answer is `False`. */
  lemma AddIdempotent(data: BotData, address: string)
    ensures var d1 := AddWallet(data, address).0;
            AddWallet(d1, address) == (d1, false)
  {
  }

  /** Adding keeps a duplicate-free list duplicate-free. */
  lemma AddKeepsDistinct(ws: seq<string>, address: string)
    requires NoDuplicates(ws)
    ensures NoDuplicates(Add(ws, address).0)
  {
  }

  /** Removing keeps a duplicate-free list duplicate-free, and afterwards the
      address is gone from it. */
  lemma RemoveKeepsDistinct(ws: seq<string>, address: string)
    requires NoDuplicates(ws)
    ensures NoDuplicates(Remove(ws, address).0)
    ensures address !in Remove(ws, address).0
  {
    var r := Remove(ws, address).0;
    if address in ws {
      var i := FirstIndex(ws, address);
      assert r == ws[..i] + ws[i + 1..];
      assert forall j :: 0 <= j < |r| ==> r[j] == (if j < i then ws[j] else ws[j + 1]);
    }
  }

  /** Adding an absent address and then removing it restores the list. */
  lemma AddThenRemove(ws: seq<string>, address: string)
    requires address !in ws
    ensures Remove(Add(ws, address).0, address) == (ws, true)
  {
    var l := ws + [address];
    assert FirstIndex(l, address) == |ws| by {
      assert forall j :: 0 <= j < |ws| ==> l[j] == ws[j] && ws[j] in ws;
    }
    assert Add(ws, address).0 == l;
    assert l[..|ws|] == ws && l[|ws| + 1..] == [];
    assert RemoveFirst(l, address) == ws;
    assert Remove(l, address) == (ws, true);
  }

  // ---------------------------------------------------------------------
  // The /add and /remove handlers

  /** `load_wallets`: the list in the file, lower-cased; a missing, unreadable
      or non-list file reads as empty. */
  function LowerAll(ws: seq<string>): (r: seq<string>)
    ensures |r| == |ws|
    ensures forall i :: 0 <= i < |ws| ==> r[i] == Lower(ws[i])
  {
    if ws == [] then [] else [Lower(ws[0])] + LowerAll(ws[1..])
  }

  function LoadWallets(file: Option<seq<string>>): seq<string> {
    LowerAll(file.GetOr([]))
  }

  /** The reply a handler sends. */
  datatype Reply = Usage | AlreadyPresent | Added(address: string) | Removed(address: string) | NotFound

  /** The file after a command, and the reply. */
  datatype CommandResult = CommandResult(file: Option<seq<string>>, reply: Reply)

  /** `cmd_add_sync`. `arg` is the command's first argument, `None` when
      there is none; it is lower-cased. An empty argument is answered with
      the usage text. A new address is appended and the whole list written
      back lower-cased; a known one leaves the file alone. */
  function CmdAdd(file: Option<seq<string>>, arg: Option<string>): (r: CommandResult)
    ensures r.reply == Usage <==> arg.None? || arg.value == ""
    ensures r.reply.Added? ==> r.reply.address == Lower(arg.value)
                               && Lower(arg.value) !in LoadWallets(file)
                               && r.file == Some(LoadWallets(file) + [Lower(arg.value)])
    ensures r.reply == AlreadyPresent <==> arg.Some? && arg.value != "" && Lower(arg.value) in LoadWallets(file)
    ensures !r.reply.Added? ==> r.file == file
  {
    if arg.None? || Lower(arg.value) == "" then CommandResult(file, Usage)
    else
      var addr := Lower(arg.value);
      var wallets := LoadWallets(file);
      if addr in wallets then CommandResult(file, AlreadyPresent)
      else CommandResult(Some(wallets + [addr]), Added(addr))
  }

  /** `cmd_remove_sync`: the first occurrence of a known address is removed
      and the list written back lower-cased; an unknown one leaves the file
      alone. */
  function CmdRemove(file: Option<seq<string>>, arg: Option<string>): (r: CommandResult)
    ensures r.reply == Usage <==> arg.None? || arg.value == ""
    ensures r.reply.Removed? ==> r.reply.address == Lower(arg.value)
                                 && Lower(arg.value) in LoadWallets(file)
                                 && r.file.Some?
                                 && multiset(r.file.value) == multiset(LoadWallets(file)) - multiset{Lower(arg.value)}
    ensures r.reply.Removed? ==>
              var ws := LoadWallets(file);
              exists i :: 0 <= i < |ws| && ws[i] == Lower(arg.value)
                          && (forall j :: 0 <= j < i ==> ws[j] != Lower(arg.value))
                          && r.file == Some(ws[..i] + ws[i + 1..])
    ensures r.reply == NotFound <==> arg.Some? && arg.value != "" && Lower(arg.value) !in LoadWallets(file)
    ensures !r.reply.Removed? ==> r.file == file
  {
    if arg.None? || Lower(arg.value) == "" then CommandResult(file, Usage)
    else
      var addr := Lower(arg.value);
      var wallets := LoadWallets(file);
      if addr in wallets then CommandResult(Some(Remove(wallets, addr).0), Removed(addr))
      else CommandResult(file, NotFound)
  }

  /** The handlers follow the same rules as `add_wallet` and `remove_wallet`,
      applied to the lower-cased list and the lower-cased argument. */
  lemma CommandsAgreeWithStore(file: Option<seq<string>>, arg: string)
    requires arg != ""
    ensures var (ws, added) := Add(LoadWallets(file), Lower(arg));
            CmdAdd(file, Some(arg)).reply.Added? == added
            && (added ==> CmdAdd(file, Some(arg)).file == Some(ws))
    ensures var (ws, removed) := Remove(LoadWallets(file), Lower(arg));
            CmdRemove(file, Some(arg)).reply.Removed? == removed
            && (removed ==> CmdRemove(file, Some(arg)).file == Some(ws))
  {
  }
}

=== FILE: whale_monitor.dfy ===
/** The whale watcher: alert when the newest transaction of a wallet moved
    at least 50 SOL out of it. */
module WhaleMonitor {
  import opened Common
  import opened SolanaRpc

  /** `MIN_SOL`. */
  const MinSol: real := 50.0

  datatype WhaleAlert = WhaleAlert(wallet: string, amountSol: real, signature: string)

  /** The alert a fetched transaction gives, if any. A transaction without
      `meta`, or with an empty balance list, raises inside the loop; the
      exception is logged and nothing is sent. */
  function AlertOf(wallet: string, signature: string, tx: Option<Transaction>): (r: Option<WhaleAlert>)
    ensures r.Some? <==>
              && tx.Some? && tx.value.meta.Some?
              && |tx.value.meta.value.preBalances| > 0 && |tx.value.meta.value.postBalances| > 0
              && SolOutflow(tx.value.meta.value) >= MinSol
    ensures r.Some? ==> r.value.wallet == wallet && r.value.signature == signature
                        && r.value.amountSol == SolOutflow(tx.value.meta.value)
  {
    if tx.None? || tx.value.meta.None? then None
    else
      var meta := tx.value.meta.value;
      if |meta.preBalances| == 0 || |meta.postBalances| == 0 then None
      else if SolOutflow(meta) >= MinSol then Some(WhaleAlert(wallet, SolOutflow(meta), signature))
      else None
  }

  /** One wallet of one pass: the dedup step, then the alert for the newest
      transaction. The record moves to the newest signature even when the
      transaction is missing or gives no alert. */
  function WhaleStep(last: LastSeen, wallet: string, input: WalletInput): (r: (LastSeen, Option<WhaleAlert>))
    ensures Observe(last, wallet, input.sigs).Unchanged? ==> r == (last, None)
    ensures Observe(last, wallet, input.sigs).Fresh? ==>
              r.0 == Observe(last, wallet, input.sigs).record
              && r.1 == AlertOf(wallet, input.sigs[0], input.tx)
  {
    match Observe(last, wallet, input.sigs)
    case Unchanged => (last, None)
    case Fresh(sig, record) => (record, AlertOf(wallet, sig, input.tx))
  }

  /** The threshold in lamports: an alert is due iff at least 50 * 10^9
      lamports left the first account. The bound is inclusive, and an
      inflow never alerts. */
  lemma WhaleThresholdInLamports(meta: Meta)
    requires |meta.preBalances| > 0 && |meta.postBalances| > 0
    ensures SolOutflow(meta) >= MinSol <==> meta.preBalances[0] - meta.postBalances[0] >= 50_000_000_000
    ensures meta.preBalances[0] <= meta.postBalances[0] ==> SolOutflow(meta) < MinSol
  {
  }

  /** The alert `a` names `wallets[i]`, its newest signature, and an
      outflow of at least 50 SOL. */
  predicate SentFor(a: WhaleAlert, wallets: seq<string>, inputs: seq<WalletInput>, i: int)
    requires |inputs| == |wallets|
  {
    0 <= i < |wallets| && a.wallet == wallets[i] && inputs[i].sigs != []
    && a.signature == inputs[i].sigs[0] && a.amountSol >= MinSol
  }

  /** One pass of `monitor` over the wallet list, `inputs[i]` being what the
      RPC returned for `wallets[i]`. */
  function WhalePass(last: LastSeen, wallets: seq<string>, inputs: seq<WalletInput>): (r: (LastSeen, seq<WhaleAlert>))
    requires |inputs| == |wallets|
    ensures r.0 == RecordsAfter(last, wallets, inputs)
    ensures |r.1| <= |wallets|
    ensures forall a :: a in r.1 ==> a.wallet in wallets
    ensures forall a :: a in r.1 ==> exists i :: SentFor(a, wallets, inputs, i)
    decreases |wallets|
  {
    if wallets == [] then (last, [])
    else
      var (m, alert) := WhaleStep(last, wallets[0], inputs[0]);
      var (m', rest) := WhalePass(m, wallets[1..], inputs[1..]);
      assert forall a :: a in rest ==> exists i :: SentFor(a, wallets, inputs, i) by {
        forall a | a in rest
          ensures exists i :: SentFor(a, wallets, inputs, i)
        {
          var k :| SentFor(a, wallets[1..], inputs[1..], k);
          assert SentFor(a, wallets, inputs, k + 1);
        }
      }
      assert alert.Some? ==> SentFor(alert.value, wallets, inputs, 0);
      if alert.Some? then (m', [alert.value] + rest) else (m', rest)
  }

  /** Wallet `wallets[i]` had a new newest signature, and its transaction
      gives the alert `a`. */
  predicate AlertedAt(last: LastSeen, wallets: seq<string>, inputs: seq<WalletInput>, i: int, a: WhaleAlert)
    requires |inputs| == |wallets|
  {
    && 0 <= i < |wallets|
    && Observe(last, wallets[i], inputs[i].sigs).Fresh?
    && AlertOf(wallets[i], inputs[i].sigs[0], inputs[i].tx) == Some(a)
  }

  /** Over a duplicate-free wallet list, a pass alerts exactly for the
      wallets whose newest signature was new and whose transaction moved at
      least 50 SOL out, with the alert of that transaction. */
  lemma {:induction false} WhalePassAlerts(last: LastSeen, wallets: seq<string>, inputs: seq<WalletInput>)
    requires |inputs| == |wallets| && NoDuplicates(wallets)
    ensures forall a :: a in WhalePass(last, wallets, inputs).1 <==> exists i :: AlertedAt(last, wallets, inputs, i, a)
    decreases |wallets|
  {
    if wallets != [] {
      var w0 := wallets[0];
      var (m, alert) := WhaleStep(last, w0, inputs[0]);
      var ws := wallets[1..];
      var ins := inputs[1..];
      var rest := WhalePass(m, ws, ins).1;
      var alerts := WhalePass(last, wallets, inputs).1;
      assert alerts == if alert.Some? then [alert.value] + rest else rest;
      assert forall k :: 0 <= k < |ws| ==> ws[k] == wallets[k + 1] && ins[k] == inputs[k + 1];
      assert forall k :: 0 <= k < |ws| ==> ws[k] != w0;
      WhalePassAlerts(m, ws, ins);
      forall a
        ensures a in alerts <==> exists i :: AlertedAt(last, wallets, inputs, i, a)
      {
        if a in rest {
          var k :| AlertedAt(m, ws, ins, k, a);
          ShiftAlerted(last, wallets, inputs, k, a);
        }
        if alert == Some(a) {
          assert AlertedAt(last, wallets, inputs, 0, a);
        }
        if exists i :: AlertedAt(last, wallets, inputs, i, a) {
          var i :| AlertedAt(last, wallets, inputs, i, a);
          if i > 0 {
            ShiftAlerted(last, wallets, inputs, i - 1, a);
          } else {
            assert alert == Some(a);
          }
        }
      }
    }
  }

  /** After the first wallet's step, a later, different wallet is alerted
      for exactly as it would have been from the record before that step. */
  lemma ShiftAlerted(last: LastSeen, wallets: seq<string>, inputs: seq<WalletInput>, k: int, a: WhaleAlert)
    requires |inputs| == |wallets| && NoDuplicates(wallets) && 0 <= k < |wallets| - 1
    ensures AlertedAt(WhaleStep(last, wallets[0], inputs[0]).0, wallets[1..], inputs[1..], k, a)
            <==> AlertedAt(last, wallets, inputs, k + 1, a)
  {
    assert wallets[1..][k] == wallets[k + 1] != wallets[0];
    assert inputs[1..][k] == inputs[k + 1];
  }

  /** No two alerts name the same wallet. */
  predicate OncePerWallet(alerts: seq<WhaleAlert>) {
    forall i, j :: 0 <= i < j < |alerts| ==> alerts[i].wallet != alerts[j].wallet
  }

  /** A pass never alerts twice for one wallet of a duplicate-free list. */
  lemma {:induction false} WhalePassOncePerWallet(last: LastSeen, wallets: seq<string>, inputs: seq<WalletInput>)
    requires |inputs| == |wallets| && NoDuplicates(wallets)
    ensures OncePerWallet(WhalePass(last, wallets, inputs).1)
    decreases |wallets|
  {
    if wallets != [] {
      var w0 := wallets[0];
      var m := WhaleStep(last, w0, inputs[0]).0;
      var alert := WhaleStep(last, w0, inputs[0]).1;
      var ws := wallets[1..];
      var ins := inputs[1..];
      var rest := WhalePass(m, ws, ins).1;
      assert forall k :: 0 <= k < |ws| ==> ws[k] == wallets[k + 1] && ws[k] != w0;
      assert NoDuplicates(ws) && w0 !in ws;
      WhalePassOncePerWallet(m, ws, ins);
      assert WhalePass(last, wallets, inputs).1 == if alert.Some? then [alert.value] + rest else rest;
      assert alert.Some? ==> alert.value.wallet == w0;
      ConsDistinctWallets(WhalePass(last, wallets, inputs).1, alert, rest, w0, ws);
    }
  }

  /** Putting an alert for a wallet in front of alerts for other wallets,
      each at most once, keeps every wallet at most once. */
  lemma ConsDistinctWallets(alerts: seq<WhaleAlert>, head: Option<WhaleAlert>, rest: seq<WhaleAlert>,
                            w0: string, ws: seq<string>)
    requires alerts == if head.Some? then [head.value] + rest else rest
    requires head.Some? ==> head.value.wallet == w0
    requires forall a :: a in rest ==> a.wallet in ws
    requires w0 !in ws
    requires OncePerWallet(rest)
    ensures OncePerWallet(alerts)
  {
    if head.Some? {
      forall i, j | 0 <= i < j < |alerts| ensures alerts[i].wallet != alerts[j].wallet {
        assert alerts[j] == rest[j - 1] && rest[j - 1] in rest;
        if i > 0 {
          assert alerts[i] == rest[i - 1];
        }
      }
    }
  }
}
